=== FILE: README.md ===
# User accounts and sessions of the video back end, in Dafny

This project models the account and session core of a Node/Express/Mongoose video
platform back end. It covers the user schema in `src/models/user.model.js` and the
handlers in `src/controllers/user.controller.js`:

- registration;
- login, which issues an access/refresh JWT pair;
- logout;
- refresh-token rotation;
- password change;
- reading the current user;
- updating the account details, the avatar and the cover image.

The modules are:

- `Wrappers`: `Option` and `Result`.
- `ApiErrors`: `ApiError(statusCode, message)`, and a plain `Error` with only a message.
- `Text`: `String.prototype.trim` over the ECMAScript whitespace set, and `toLowerCase`.
- `Bcrypt` and `Jwt`: the two libraries, idealised. A digest checks exactly the password it was made from. A signed token verifies under its own secret unless the clock says it has expired. The caller supplies the salt, the issue time and the clock's verdict.
- `UserModel`: the schema's setters and required-field validation (`CreateDocument`), the pre-save hook as a function (`PreSaveHook`), and `isPasswordCorrect` and the two token generators. It also has `Select`, the `.select("-…")` projection. The class `UserDocument` is a loaded document: it records a password assignment and re-hashes it in place in `PreSave`.
- `Session`: every handler as a function from the store (`State`: the documents by id, the next id, and a counter for salts and issue times) to an `Outcome` (the answer or the error, and the new store).
- `SessionProperties`: lemmas that relate several calls.
  - The store invariant `Valid`: unique usernames and emails, non-empty usernames, and every stored refresh token issued to its own holder.
  - `Valid` is kept by every handler and by every sequence of requests.
  - Refresh tokens are revoked by logout, rotation and a new login, and stay revoked for ever after.
  - Registration refuses duplicates.
  - Login works after a password change.
  - No corrected answer carries a password digest.
- `UserController`: the class `Store`. It holds the documents in mutable fields, with one method per handler. Each method changes the store in place, and its contract says it answers and updates exactly as the `Session` function does and keeps `Valid`.

## Model

| member | source | states |
|---|---|---|
| Text.Trim | src/models/user.model.js:12 | the trimmed value neither starts nor ends with whitespace and is no longer than the input; it is empty exactly when the input is all whitespace |
| Text.TrimStripsOuterWhitespace | src/models/user.model.js:12 | the trimmed value is the input with exactly its leading and trailing whitespace removed: a slice of it, with only whitespace before and after, that starts and ends with a non-whitespace character |
| Text.ToLower | src/models/user.model.js:11 | same length; each character is lower-cased; no upper-case letter remains |
| Text.ToLowerIdempotent | src/models/user.model.js:11 | lower-casing twice is lower-casing once |
| Text.ToLowerKeepsLowered | src/models/user.model.js:11 | a string without upper-case letters is its own lower-case |
| Text.ToLowerKeepsBlankness | src/models/user.model.js:11-12 | lower-casing keeps a blank string blank and a non-blank one non-blank, so the setters leave a value empty exactly when `trim` alone would |
| Text.TrimOfTrimmed | src/models/user.model.js:12 | a string without leading or trailing whitespace is its own trim |
| Text.TrimIdempotent | src/models/user.model.js:12 | trimming twice is trimming once |
| Text.TrimKeepsNoUpperCase | src/models/user.model.js:11-12 | trimming a lower-cased string keeps it lower-cased |
| Text.NormalizeIdempotent | src/models/user.model.js:7-21 | running the username/email setters (lowercase, then trim) on a stored value changes nothing |
| Text.NormalizeAfterLower | src/controllers/user.controller.js:84 | the controller's own `toLowerCase` before the setters does not change the stored username |
| Bcrypt.Hash | src/models/user.model.js:58 | the digest records its salt and compares true for exactly the hashed password |
| Bcrypt.SaltedHashesDiffer | src/models/user.model.js:58 | one password hashed with two salts gives two digests |
| Jwt.Verify | src/controllers/user.controller.js:202 | claims are returned exactly when the token is signed with this secret and not expired; a non-token is "jwt malformed", any other secret is an invalid signature, and an expired token with the right secret is "jwt expired" |
| Jwt.Sign | src/models/user.model.js:67-78 | a signed token verifies to its claims under its secret until it expires, and fails under any other secret |
| UserModel.Select | src/controllers/user.controller.js:90-92 | the projection keeps the identity and profile fields; it drops the digest and the refresh token unless asked to keep them |
| UserModel.CreateDocument | src/models/user.model.js:7-48 | creation succeeds exactly when the set-up username, email and fullName and the avatar are non-empty and a password is given; on success the fields are lower-cased/trimmed, the digest checks the password, and there is no refresh token; otherwise it is a validation error |
| UserModel.PreSaveHook | src/models/user.model.js:53-60 | an unmodified password leaves the document unchanged; a modified one changes only the digest, which then checks exactly the new password |
| UserModel.IsPasswordCorrect | src/models/user.model.js:62-64 | true exactly when the stored digest is the hash of the candidate under its own salt |
| UserModel.GenerateAccessToken | src/models/user.model.js:65-79 | the token verifies under the access secret to the id, username, email and fullName, with the access expiry |
| UserModel.GenerateRefreshToken | src/models/user.model.js:80-90 | the token verifies under the refresh secret to the id alone, with the refresh expiry |
| UserModel.UserDocument.Load | src/controllers/user.controller.js:14 | a loaded document holds the stored record, with no modified password |
| UserModel.UserDocument.SetPassword | src/controllers/user.controller.js:248 | assigning a password marks it modified and leaves the record alone until saved |
| UserModel.UserDocument.SetRefreshToken | src/controllers/user.controller.js:19 | only the refresh token changes, and the password is not marked modified |
| UserModel.UserDocument.PreSave | src/models/user.model.js:53-60 | the record after the hook is `PreSaveHook` of the record before, and nothing is left marked modified |
| Session.FirstMatch | src/controllers/user.controller.js:123-125 | the found id matches the query and no earlier id in range does; no result means nothing in range matches |
| Session.FindOne | src/controllers/user.controller.js:52-56 | `findOne` with `$or`, with the filter values cast through the schema setters (lower-case, trim): the result matches, and no earlier document matches |
| Session.IssueTokens | src/controllers/user.controller.js:11-31 | a missing user gives 500 "Something went wrong while generating tokens"; otherwise both tokens verify to the user's claims, and only the stored refresh token (replaced by the new one) and the counter change |
| Session.Create | src/controllers/user.controller.js:81-88 | succeeds exactly when the document validates and no stored user holds its normalized username or email; a validation failure or an E11000 clash is answered as such and leaves the store unchanged; on success the new document goes under a fresh id, with the set-up fields, a digest checking the password and no refresh token |
| Session.Register | src/controllers/user.controller.js:34-100 | a blank supplied field gives 400; a pre-check hit on the username or email, after the setters, gives the plain `Error` with message "409"; otherwise a missing avatar or a failed upload gives 400 "Avatar is required"; otherwise the answer and store are creation with the uploaded URLs; a failure leaves the store unchanged |
| Session.CreateUploaded | src/controllers/user.controller.js:81-95 | a missing username throws a `TypeError`; success holds exactly when all fields survive the setters non-empty, a password and avatar are given, and no stored user holds the normalized username or email; the cover URL falls back to `""` |
| Session.Login | src/controllers/user.controller.js:102-168 | 400 without username and email; 404 when no document matches after the setters; 401 on a wrong password; success exactly with a match and its correct password, issuing a pair whose refresh token replaces the stored one, answered without digest or token |
| Session.Logout | src/controllers/user.controller.js:170-193 | unsets exactly the caller's refresh token; every other document, the ids and the counter are unchanged |
| Session.IncomingRefreshToken | src/controllers/user.controller.js:196-200 | the cookie token if it is truthy, else the body token if it is truthy, else none; the empty string counts as no token |
| Session.Refresh | src/controllers/user.controller.js:195-237 | every failure is a 401 and changes nothing; no truthy token (cookie before body, `""` is none) gives "unauthorized request"; a failed verification gives jwt's own message (malformed, invalid signature, expired); a verified token naming no stored user gives "invalid refresh token"; one that does not equal the stored token gives "Refresh token is expired or used"; success holds exactly when the incoming token verifies, names a stored user and equals that user's stored token; success returns an access token with that user's claims and rotates the refresh token |
| Session.ChangePassword | src/controllers/user.controller.js:238-254 | a wrong old password gives 400 "Invalid password"; success holds exactly when the user exists, the old password checks and a new one is given; afterwards the digest checks exactly the new password and nothing else of the document changes |
| Session.GetCurrentUser | src/controllers/user.controller.js:256-260 | present exactly when the user exists, and then the user's document under the projection that drops the digest and the refresh token, every other field (avatar and coverImage included) as stored |
| Session.SetAccountDetails | src/controllers/user.controller.js:262-278 | 400 unless both fields are truthy; a missing user updates nothing; an email another user holds (after the setters) fails with E11000 and changes nothing; otherwise the update succeeds, with fullName trimmed and email normalized and nothing else changed |
| Session.UpdateAccountDetailsAsWritten | src/controllers/user.controller.js:262-283 | as written: the same update, success and error (400 or E11000) as the store update; the answer is the whole updated document under a projection that excludes nothing, so it carries the stored password digest |
| Session.UpdateAccountDetails | src/controllers/user.controller.js:262-283 | corrected: the same update, success and error (400 or E11000) as the store update; the answer is the updated document under `-password`, so every field (id, username, avatar, coverImage, refreshToken, the new fullName and email) is as stored and there is no digest |
| Session.UpdateUserAvatar | src/controllers/user.controller.js:285-310 | 400 "Avatar file is missing" / "Error while uploading on avatar"; a present path that uploads always succeeds; then only `avatar` changes, and the answer keeps the refresh token but not the digest |
| Session.UpdateUserCoverImage | src/controllers/user.controller.js:312-337 | the same for `coverImage`, including the avatar's message for a missing file; a present path that uploads always succeeds |
| SessionProperties.FindOneMissesOnlyWithoutMatch | src/controllers/user.controller.js:123-129 | on a valid store, 404 is answered exactly when no document matches |
| SessionProperties.FindByUsername | src/controllers/user.controller.js:123-125 | usernames are unique, so a lookup by any name the setters turn into a stored username finds that document |
| SessionProperties.IssueTokensPreservesValid | src/controllers/user.controller.js:11-31 | issuing tokens keeps the store invariant |
| SessionProperties.CreateUploadedSucceeded | src/controllers/user.controller.js:81-88 | what a successful creation stored, stated for later proofs |
| SessionProperties.RegisterSucceeded | src/controllers/user.controller.js:34-100 | what a successful registration stored: a fresh id with a normalized, unclaimed username and email |
| SessionProperties.InsertPreservesValid | src/models/user.model.js:7-21 | inserting an unclaimed, non-empty username and email without a token keeps the invariant |
| SessionProperties.RegisterPreservesValid | src/controllers/user.controller.js:34-100 | registration keeps the store invariant |
| SessionProperties.LoginPreservesValid | src/controllers/user.controller.js:102-168 | login keeps the store invariant |
| SessionProperties.LogoutPreservesValid | src/controllers/user.controller.js:170-193 | logout keeps the store invariant |
| SessionProperties.RefreshPreservesValid | src/controllers/user.controller.js:195-237 | refresh keeps the store invariant |
| SessionProperties.ChangePasswordPreservesValid | src/controllers/user.controller.js:238-254 | password change keeps the store invariant |
| SessionProperties.ReplacePreservesValid | src/controllers/user.controller.js:269-278 | replacing a document with one that has the same username, an unclaimed email and the same token keeps the invariant |
| SessionProperties.SetAccountDetailsPreservesValid | src/controllers/user.controller.js:262-283 | the account update keeps the store invariant |
| SessionProperties.UpdateUserAvatarPreservesValid | src/controllers/user.controller.js:285-310 | the avatar update keeps the store invariant |
| SessionProperties.UpdateUserCoverImagePreservesValid | src/controllers/user.controller.js:312-337 | the cover image update keeps the store invariant |
| SessionProperties.StepPreservesValid | src/controllers/user.controller.js:34-337 | every handler keeps the store invariant |
| SessionProperties.RunPreservesValid | src/controllers/user.controller.js:34-337 | every sequence of requests keeps the store invariant |
| SessionProperties.RevokedIsRejected | src/controllers/user.controller.js:196-211 | a revoked token that is the incoming token, whether sent as the cookie or in the body when the cookie is absent or empty, is refused with 401, and the store is unchanged |
| SessionProperties.StepIssuesOnlyFresh | src/controllers/user.controller.js:11-31 | a handler only stores a refresh token the user already had, or one issued now |
| SessionProperties.RevokedStaysRevoked | src/controllers/user.controller.js:11-31 | a store change that only issues fresh tokens keeps a revoked token revoked |
| SessionProperties.RunKeepsRevoked | src/controllers/user.controller.js:34-337 | a revoked token stays revoked after any sequence of requests |
| SessionProperties.StoredOnlyForOwner | src/controllers/user.controller.js:204-211 | a stored refresh token is stored for no other user |
| SessionProperties.LogoutRevokes | src/controllers/user.controller.js:170-180 | after logout the user's former refresh token is revoked |
| SessionProperties.RotationRevokes | src/controllers/user.controller.js:219 | after a successful refresh the redeemed token is revoked |
| SessionProperties.LoginRevokesPrevious | src/controllers/user.controller.js:137 | after login the user's former refresh token is revoked |
| SessionProperties.NoRefreshAfterLogout | src/controllers/user.controller.js:170-237 | after logout and any later requests, the former token is refused with 401, sent as the cookie or in the body |
| SessionProperties.NoRefreshAfterRotation | src/controllers/user.controller.js:195-237 | after rotation and any later requests, the rotated-out token is refused with 401, sent as the cookie or in the body |
| SessionProperties.LogoutIdempotent | src/controllers/user.controller.js:170-180 | logging out twice is logging out once |
| SessionProperties.RegisterRejectsTaken | src/controllers/user.controller.js:52-88 | registration fails, leaving the store unchanged, when a stored user holds the normalized username or email |
| SessionProperties.RegisterTakenAnswers409 | src/controllers/user.controller.js:52-59 | on a valid store, a form without blank fields whose username or email normalizes to a stored one is answered with the plain `Error` "409" before the avatar is looked at, and the store is unchanged |
| SessionProperties.RegisterSucceedsWhenUnclaimed | src/controllers/user.controller.js:34-100 | registration succeeds, storing the normalized username under the next id, when the fields survive the setters non-empty, the password is not blank, the normalized username and email are unclaimed and the avatar uploads |
| SessionProperties.SecondRegistrationFails | src/controllers/user.controller.js:52-88 | of two registrations with the same username or email, the second fails |
| SessionProperties.SameNameRegistersOnce | src/controllers/user.controller.js:34-100 | of two well-formed registrations with one username on a store where it is free, exactly the first succeeds |
| SessionProperties.ChangePasswordThenLogin | src/controllers/user.controller.js:238-254 | after a password change, login by username in any spelling that normalizes to it succeeds with the new password, and is refused with 401 for a different old one |
| SessionProperties.LoginWithCorrectPassword | src/controllers/user.controller.js:102-168 | on a valid store, login by any spelling of a stored username that normalizes to it, with the right password, succeeds and logs in that user |
| SessionProperties.UpdateAccountDetailsLeaksDigest | src/controllers/user.controller.js:278 | on a successful update the as-written answer holds a digest that checks the user's password; the corrected answer holds none |
| SessionProperties.NoAnswerCarriesDigest | src/controllers/user.controller.js:90-92 | registration, login, the current user and the corrected updates never answer with a digest |
| UserController.Store.constructor | src/models/user.model.js:92 | an empty store satisfies the invariant |
| UserController.Store.GenerateAccessAndRefreshTokens | src/controllers/user.controller.js:11-31 | loads the document, sets and saves the new refresh token in place; the answer and new store are `IssueTokens`, and the invariant is kept |
| UserController.Store.RegisterUser | src/controllers/user.controller.js:34-100 | answers and updates as `Register`, keeping the invariant |
| UserController.Store.CreateUser | src/controllers/user.controller.js:81-95 | answers and updates as `CreateUploaded`, keeping the invariant |
| UserController.Store.InsertUser | src/controllers/user.controller.js:81-88 | answers and updates as `Create`, keeping the invariant |
| UserController.Store.LoginUser | src/controllers/user.controller.js:102-168 | answers and updates as `Login`, keeping the invariant |
| UserController.Store.LogoutUser | src/controllers/user.controller.js:170-193 | updates as `Logout`, keeping the invariant |
| UserController.Store.RefreshAccessToken | src/controllers/user.controller.js:195-237 | answers and updates as `Refresh`, keeping the invariant |
| UserController.Store.ChangeCurrentPassword | src/controllers/user.controller.js:238-254 | loads the document, assigns the password and saves it through the hook; answers and updates as `ChangePassword`, keeping the invariant |
| UserController.Store.CurrentUser | src/controllers/user.controller.js:256-260 | answers as `GetCurrentUser` and changes nothing |
| UserController.Store.UpdateAccount | src/controllers/user.controller.js:262-283 | answers and updates as the corrected `UpdateAccountDetails`, keeping the invariant |
| UserController.Store.UpdateAvatar | src/controllers/user.controller.js:285-310 | answers and updates as `UpdateUserAvatar`, keeping the invariant |
| UserController.Store.UpdateCoverImage | src/controllers/user.controller.js:312-337 | answers and updates as `UpdateUserCoverImage`, keeping the invariant |

## Left out

- Authentication middleware: the handlers that need a logged-in user take the authenticated id as a parameter. The middleware (`verifyJWT`) is not part of this model. `GetCurrentUser` answers with the stored document, projected the way login projects it.
- File storage: `uploadFileOnCloudinary` is a parameter from a local path to an optional URL. Uploading the cover image before the avatar check, and deleting local files, are not modelled.
- HTTP: cookies, their options, status codes on success and the `ApiResponse` envelopes are not modelled. A handler's answer is the data it would send, or the error it throws.
- `getUserChannelProfile` and `getWatchHistory` (aggregation pipelines), the `watchHistory` field and the timestamps are not part of this model.
- Bcrypt.Hash: the work factor (10) and real salts are not modelled. The salt is the store's counter, and a digest records the password it checks.
- Jwt.Verify: expiry is not computed from `expiresIn` and a clock. The caller passes the clock's verdict as a flag.
- Jwt.Sign: a real token carries `iat` and `exp` in whole seconds, and HS256 signing is deterministic, so two refresh tokens for one user issued in the same second are the same string. The model stamps each token with the store's counter instead, so every token it issues is new. Revocation therefore holds here only under that assumption. In the program, a refresh, or a logout followed by a login, within the same second stores the old string again, and the "revoked" token is accepted again. SessionProperties.RotationRevokes, LoginRevokesPrevious, NoRefreshAfterLogout, NoRefreshAfterRotation and RunKeepsRevoked rely on this assumption.
- Session.FindOne: a filter value that is absent matches nothing, and documents are returned in creation order. Filter values go through the same lower-case and trim setters as stored values. The driver's handling of `{ field: undefined }`, and a server-chosen order, are not modelled.
- Session.Register: a `req.files` without an `avatar` entry, which throws a `TypeError` at line 61, is modelled as a missing avatar path (400).
- Session.Register: the check at lines 93-95 cannot fire once `User.create` has succeeded, so it is not modelled.
- Session.Register: the duplicate pre-check throws `new Error(409, …)`, which in JavaScript is a plain error whose message is "409", with no status code. The model keeps this as written.
- Session.ChangePassword: a wrong old password is answered with 400 "Invalid password", as the code does, although a 401 would be usual.
- Session.Refresh: the catch block re-throws each error as 401 with the same message. Its fallback "Invalid refresh token", and the token generator's 500, cannot occur there, so neither is modelled separately.
- UserModel.PreSaveHook: assigning a password equal to the stored value (which Mongoose does not mark as modified) is not distinguished. Every assignment is treated as a modification.
- Text.ToLower: only ASCII letters are lower-cased. Unicode case mapping is not modelled.
- Concurrency between requests and database failures are not modelled. Each handler runs to completion on one store.

## Findings

| source | as written | input that shows it | evidently intended | confidence | as-written member | corrected member |
|---|---|---|---|---|---|---|
| src/controllers/user.controller.js:278 | `updateAccountDetails` projects with `.select("-passsword")`, which names no field, so the answer includes the stored bcrypt digest | an authenticated user updating fullName "A" and email "a@b.c" (no other user holds that email) gets back a document whose `password` is their digest | `.select("-password")`, as the avatar and cover image updates use, so that no answer carries the digest | high; not executed | SessionProperties.UpdateAccountDetailsLeaksDigest | Session.UpdateAccountDetails |

=== FILE: api_errors.dfy ===
/**
 * What a controller handler throws. The error middleware that turns these into an
 * HTTP response is not part of this model: an `ApiError` carries its own status code,
 * a `PlainError` (a JavaScript `Error`, a Mongoose validation error, a MongoDB
 * duplicate-key error, a `TypeError`) carries none and ends as a server error.
 */
module ApiErrors {

  datatype Failure =
    | ApiError(statusCode: nat, message: string)
    | PlainError(message: string)
}

=== FILE: bcrypt.dfy ===
/**
 * The password hasher (`bcrypt.hash` and `bcrypt.compare`), idealised.
 *
 * A digest records the salt it was made with and, abstractly, the password it was
 * made from: `Compare` succeeds exactly for that password. There are no collisions,
 * and the work factor is not modelled. The salt is random in the real hasher; here
 * the caller supplies it, so two hashes of one password with two salts differ.
 */
module Bcrypt {

  datatype Digest = Digest(salt: nat, preimage: string)

  /** `bcrypt.compare(password, digest)`. */
  function Compare(password: string, digest: Digest): bool {
    digest.preimage == password
  }

  /** `bcrypt.hash(password, 10)` with the salt drawn by the caller. */
  function Hash(password: string, salt: nat): (d: Digest)
    ensures d.salt == salt
    ensures forall p :: Compare(p, d) <==> p == password
  {
    Digest(salt, password)
  }

  /** Hashing is salted: the same password hashed with two salts gives two digests. */
  lemma SaltedHashesDiffer(password: string, salt1: nat, salt2: nat)
    requires salt1 != salt2
    ensures Hash(password, salt1) != Hash(password, salt2)
  {
  }
}

=== FILE: jwt.dfy ===
/**
 * The token issuer (`jwt.sign` and `jwt.verify` of jsonwebtoken), idealised.
 *
 * A signed token carries its claims, the secret it was signed with, the configured
 * `expiresIn` and its issue time. Verification with the right secret returns the
 * claims; any other secret is a bad signature. Whether the clock has passed the
 * token's expiry is not computed here: the caller passes the clock's verdict as
 * `expired`. A string that is not a token at all is `Malformed`.
 */
module Jwt {

  import opened Wrappers

  datatype Token<C> =
    | Signed(claims: C, secret: string, expiresIn: string, issuedAt: nat)
    | Malformed(text: string)

  datatype VerifyError = JwtMalformed | InvalidSignature | TokenExpired

  /** The `message` of the error `jwt.verify` throws. */
  function Message(e: VerifyError): string {
    match e
    case JwtMalformed => "jwt malformed"
    case InvalidSignature => "invalid signature"
    case TokenExpired => "jwt expired"
  }

  /**
   * `jwt.verify(token, secret)`: the signature is checked before the expiry, and
   * the claims come back only when both pass.
   */
  function Verify<C>(t: Token<C>, secret: string, expired: bool): (r: Result<C, VerifyError>)
    ensures r.Success? <==> t.Signed? && t.secret == secret && !expired
    ensures r.Success? ==> r.value == t.claims
    ensures t.Malformed? ==> r == Failure(JwtMalformed)
    ensures t.Signed? && t.secret != secret ==> r == Failure(InvalidSignature)
    ensures t.Signed? && t.secret == secret && expired ==> r == Failure(TokenExpired)
  {
    match t
    case Malformed(_) => Failure(JwtMalformed)
    case Signed(claims, key, _, _) =>
      if key != secret then Failure(InvalidSignature)
      else if expired then Failure(TokenExpired)
      else Success(claims)
  }

  /** `jwt.sign(claims, secret, { expiresIn })` at issue time `issuedAt`. */
  function Sign<C>(claims: C, secret: string, expiresIn: string, issuedAt: nat): (t: Token<C>)
    ensures Verify(t, secret, false) == Success(claims)
    ensures Verify(t, secret, true) == Failure(TokenExpired)
    ensures forall other :: other != secret ==> Verify(t, other, false) == Failure(InvalidSignature)
    ensures t.Signed? && t.expiresIn == expiresIn && t.issuedAt == issuedAt
  {
    Signed(claims, secret, expiresIn, issuedAt)
  }
}

=== FILE: session.dfy ===
/**
 * The user controller's session logic, one function per handler, over a value of
 * the whole credential store. Each function returns what the handler answers and
 * the store after it; a failure leaves the store as it was.
 *
 * The HTTP layer is not modelled: the authenticated id that the access-token
 * middleware puts on `req.user` is a parameter, cookies and response envelopes are
 * left out, and the media upload collaborator is a function `upload(path)` that
 * returns the uploaded file's URL, or `None` when the upload failed.
 */
module Session {

  import opened Wrappers
  import opened ApiErrors
  import opened Text
  import opened Jwt
  import opened UserModel

  /**
   * The credential store: the user documents by id, the next id to assign, and a
   * counter that supplies bcrypt salts and token issue times. Every token issued is
   * stamped with the counter's current value and the counter then advances, so each
   * token is distinct from every earlier one.
   */
  datatype State = State(config: Config, users: map<Id, User>, nextId: nat, nonce: nat)

  datatype Outcome<T> = Outcome(result: Result<T, Failure>, next: State)

  datatype TokenPair = TokenPair(accessToken: AuthToken, refreshToken: AuthToken)

  /** A request value that JavaScript treats as true: present and not `""`. */
  predicate Truthy(v: Option<string>) {
    v.Some? && v.value != ""
  }

  /** `v?.trim() === ""`: supplied, and blank once trimmed. An absent value is not blank. */
  predicate SuppliedBlank(v: Option<string>) {
    v.Some? && Trim(v.value) == ""
  }

  /** The refresh token the controller would have issued to `id`, before the current counter value. */
  predicate IsIssuedRefreshToken(s: State, id: Id, t: AuthToken) {
    t.Signed? && t.claims == RefreshClaims(id) && t.secret == s.config.refreshSecret &&
    t.expiresIn == s.config.refreshExpiry && t.issuedAt < s.nonce
  }

  /**
   * The store's invariant: ids come from the counter, usernames are non-empty,
   * usernames and emails are unique (the schema's unique indexes), and a stored
   * refresh token is one that was issued to that very user.
   */
  predicate Valid(s: State) {
    (forall id :: id in s.users ==> id < s.nextId && s.users[id].username != "") &&
    (forall i, j :: i in s.users && j in s.users && i != j ==>
       s.users[i].username != s.users[j].username && s.users[i].email != s.users[j].email) &&
    (forall id :: id in s.users && s.users[id].refreshToken.Some? ==>
       IsIssuedRefreshToken(s, id, s.users[id].refreshToken.value))
  }

  // ---------------------------------------------------------------------------
  // Store queries

  /** The filter `{ $or: [{ username }, { email }] }`; an absent value matches nothing. */
  datatype Query = UsernameOrEmail(username: Option<string>, email: Option<string>)

  /**
   * A document matches when its username or email equals the filter value after the
   * schema's setters, which Mongoose also applies to query values (lower-case, trim).
   */
  predicate Matches(u: User, q: Query) {
    (q.username.Some? && u.username == Normalize(q.username.value)) ||
    (q.email.Some? && u.email == Normalize(q.email.value))
  }

  /** The first id in `[from, to)` whose document matches `q`. */
  function FirstMatch(users: map<Id, User>, q: Query, from: nat, to: nat): (r: Option<Id>)
    decreases to - from
    ensures r.Some? ==> from <= r.value < to && r.value in users && Matches(users[r.value], q)
    ensures r.Some? ==> forall j :: from <= j < r.value && j in users ==> !Matches(users[j], q)
    ensures r.None? ==> forall j :: from <= j < to && j in users ==> !Matches(users[j], q)
  {
    if from >= to then None
    else if from in users && Matches(users[from], q) then Some(from)
    else FirstMatch(users, q, from + 1, to)
  }

  /** `User.findOne(q)`: the earliest-created matching document, if any. */
  function FindOne(s: State, q: Query): (r: Option<Id>)
    ensures r.Some? ==> r.value in s.users && Matches(s.users[r.value], q)
    ensures r.Some? ==> forall j :: j in s.users && j < r.value ==> !Matches(s.users[j], q)
  {
    FirstMatch(s.users, q, 0, s.nextId)
  }

  /** Some document other than `except` already holds this email (the email unique index). */
  predicate EmailTakenByOther(users: map<Id, User>, except: Id, email: string) {
    exists other :: other in users && other != except && users[other].email == email
  }

  /** Some document already holds this username or this email (the two unique indexes). */
  predicate Taken(users: map<Id, User>, username: string, email: string) {
    exists other :: other in users && (users[other].username == username || users[other].email == email)
  }

  // ---------------------------------------------------------------------------
  // generateAccessAndRefereshTokens

  /**
   * Signs an access and a refresh token for `id`, stores the refresh token on the
   * document (replacing any earlier one) and saves it; the password is not modified,
   * so the pre-save hook leaves the digest alone.
   */
  function IssueTokens(s: State, id: Id): (o: Outcome<TokenPair>)
    ensures id !in s.users ==>
      o == Outcome(Failure(ApiError(500, "Something went wrong while generating tokens")), s)
    ensures id in s.users ==> o.result.Success?
    ensures o.result.Success? ==>
      var pair := o.result.value;
      var u := s.users[id];
      o.next == s.(users := s.users[id := u.(refreshToken := Some(pair.refreshToken))], nonce := s.nonce + 1) &&
      Verify(pair.accessToken, s.config.accessSecret, false) == Success(AccessClaims(id, u.username, u.email, u.fullName)) &&
      Verify(pair.refreshToken, s.config.refreshSecret, false) == Success(RefreshClaims(id)) &&
      IsIssuedRefreshToken(o.next, id, pair.refreshToken) && pair.refreshToken.issuedAt == s.nonce
  {
    if id !in s.users then
      Outcome(Failure(ApiError(500, "Something went wrong while generating tokens")), s)
    else
      var u := s.users[id];
      var accessToken := GenerateAccessToken(id, u, s.config, s.nonce);
      var refreshToken := GenerateRefreshToken(id, s.config, s.nonce);
      var saved := PreSaveHook(u.(refreshToken := Some(refreshToken)), None, s.nonce);
      Outcome(Success(TokenPair(accessToken, refreshToken)),
              s.(users := s.users[id := saved], nonce := s.nonce + 1))
  }

  // ---------------------------------------------------------------------------
  // registerUser

  /**
   * `User.create(fields)`: the document is built (setters, validation, hashing) and
   * inserted under the next id, unless a unique index already holds its username or
   * email. `findById(...).select("-password -refreshToken")` then reads it back.
   */
  function Create(s: State, fields: NewUser): (o: Outcome<UserView>)
    ensures o.result.Failure? ==> o.next == s
    ensures o.result.Success? <==>
      CreateDocument(fields, s.nonce).Success? &&
      !Taken(s.users, Normalize(fields.username), Normalize(fields.email.value))
    ensures CreateDocument(fields, s.nonce).Failure? ==>
      o.result == Failure(CreateDocument(fields, s.nonce).error)
    ensures CreateDocument(fields, s.nonce).Success? &&
            Taken(s.users, Normalize(fields.username), Normalize(fields.email.value)) ==>
      o.result == Failure(PlainError("E11000 duplicate key error"))
    ensures o.result.Success? ==>
      fields.email.Some? && fields.fullName.Some? && fields.password.Some? &&
      var id := s.nextId;
      id in o.next.users &&
      var u := o.next.users[id];
      o.next == s.(users := s.users[id := u], nextId := id + 1, nonce := s.nonce + 1) &&
      u.username != "" &&
      u.username == Normalize(fields.username) && u.email == Normalize(fields.email.value) &&
      u.fullName == Trim(fields.fullName.value) && u.avatar == fields.avatar &&
      u.coverImage == fields.coverImage &&
      IsPasswordCorrect(u, fields.password.value) && u.refreshToken == None &&
      !Taken(s.users, u.username, u.email) &&
      o.result.value == Select(id, u, false, false)
  {
    match CreateDocument(fields, s.nonce)
    case Failure(e) => Outcome(Failure(e), s)
    case Success(u) =>
      if Taken(s.users, u.username, u.email) then
        Outcome(Failure(PlainError("E11000 duplicate key error")), s)
      else
        Outcome(Success(Select(s.nextId, u, false, false)),
                s.(users := s.users[s.nextId := u], nextId := s.nextId + 1, nonce := s.nonce + 1))
  }

  /** The request body fields and the uploaded files' local paths; `None` is absent. */
  datatype RegisterForm = RegisterForm(username: Option<string>, email: Option<string>,
                                       fullName: Option<string>, password: Option<string>,
                                       avatarPath: Option<string>, coverImagePath: Option<string>)

  predicate AnySuppliedBlank(f: RegisterForm) {
    SuppliedBlank(f.username) || SuppliedBlank(f.email) ||
    SuppliedBlank(f.fullName) || SuppliedBlank(f.password)
  }

  /**
   * `registerUser`: blank check, duplicate pre-check on the username and email (which
   * the query casts through the setters), avatar check, uploads, then `User.create`,
   * which runs the setters, validation and hashing, behind the unique indexes.
   */
  function Register(s: State, f: RegisterForm, upload: string -> Option<string>): (o: Outcome<UserView>)
    ensures o.result.Failure? ==> o.next == s
    ensures AnySuppliedBlank(f) ==> o.result == Failure(ApiError(400, "All fields are required"))
    ensures !AnySuppliedBlank(f) && FindOne(s, UsernameOrEmail(f.username, f.email)).Some? ==>
      o.result == Failure(PlainError("409"))
    ensures !AnySuppliedBlank(f) && FindOne(s, UsernameOrEmail(f.username, f.email)).None? &&
            (!Truthy(f.avatarPath) || upload(f.avatarPath.value).None?) ==>
      o.result == Failure(ApiError(400, "Avatar is required"))
    ensures !AnySuppliedBlank(f) && FindOne(s, UsernameOrEmail(f.username, f.email)).None? &&
            Truthy(f.avatarPath) && upload(f.avatarPath.value).Some? ==>
      o == CreateUploaded(s, f, upload(f.avatarPath.value).value,
                          if Truthy(f.coverImagePath) then upload(f.coverImagePath.value) else None)
    ensures o.result.Success? ==>
      Truthy(f.avatarPath) && upload(f.avatarPath.value).Some? &&
      o == CreateUploaded(s, f, upload(f.avatarPath.value).value,
                          if Truthy(f.coverImagePath) then upload(f.coverImagePath.value) else None)
  {
    if AnySuppliedBlank(f) then
      Outcome(Failure(ApiError(400, "All fields are required")), s)
    else if FindOne(s, UsernameOrEmail(f.username, f.email)).Some? then
      Outcome(Failure(PlainError("409")), s)
    else if !Truthy(f.avatarPath) then
      Outcome(Failure(ApiError(400, "Avatar is required")), s)
    else
      var avatar := upload(f.avatarPath.value);
      var coverImage := if Truthy(f.coverImagePath) then upload(f.coverImagePath.value) else None;
      if avatar.None? then
        Outcome(Failure(ApiError(400, "Avatar is required")), s)
      else
        CreateUploaded(s, f, avatar.value, coverImage)
  }

  /**
   * The rest of `registerUser` once the avatar is uploaded: the cover URL falls back
   * to `""`, `username.toLowerCase()` needs a username, then `User.create`.
   */
  function CreateUploaded(s: State, f: RegisterForm, avatar: string, coverImage: Option<string>)
    : (o: Outcome<UserView>)
    ensures o.result.Failure? ==> o.next == s
    ensures f.username.None? ==> o.result == Failure(PlainError("TypeError"))
    ensures o.result.Success? <==>
      f.username.Some? && f.email.Some? && f.fullName.Some? && Present(f.password) &&
      Normalize(f.username.value) != "" && Normalize(f.email.value) != "" &&
      Trim(f.fullName.value) != "" && avatar != "" &&
      !Taken(s.users, Normalize(f.username.value), Normalize(f.email.value))
    ensures o.result.Success? ==>
      f.username.Some? && f.email.Some? && f.fullName.Some? && f.password.Some? &&
      var id := s.nextId;
      id in o.next.users &&
      var u := o.next.users[id];
      o.next == s.(users := s.users[id := u], nextId := id + 1, nonce := s.nonce + 1) &&
      u.username != "" &&
      u.username == Normalize(f.username.value) && u.email == Normalize(f.email.value) &&
      u.fullName == Trim(f.fullName.value) && u.avatar == avatar &&
      u.coverImage == (if Truthy(coverImage) then coverImage.value else "") &&
      IsPasswordCorrect(u, f.password.value) && u.refreshToken == None &&
      !Taken(s.users, u.username, u.email) &&
      o.result.value == Select(id, u, false, false)
  {
    if f.username.None? then
      // `username.toLowerCase()` on undefined
      Outcome(Failure(PlainError("TypeError")), s)
    else
      var fields := NewUser(ToLower(f.username.value), f.email, f.fullName, avatar,
                            if Truthy(coverImage) then coverImage.value else "", f.password);
      NormalizeAfterLower(f.username.value);
      Create(s, fields)
  }

  // ---------------------------------------------------------------------------
  // loginUser

  datatype LoginReply = LoginReply(user: UserView, accessToken: AuthToken, refreshToken: AuthToken)

  /**
   * `loginUser`: finds the user by username or email, both cast through the schema's
   * lower-case and trim setters (`Matches`), checks the password
   * and issues a token pair, whose refresh token replaces the stored one.
   */
  function Login(s: State, username: Option<string>, email: Option<string>, password: Option<string>)
    : (o: Outcome<LoginReply>)
    ensures o.result.Failure? ==> o.next == s
    ensures !Truthy(username) && !Truthy(email) ==>
      o.result == Failure(ApiError(400, "username or email is required"))
    ensures (Truthy(username) || Truthy(email)) && FindOne(s, UsernameOrEmail(username, email)).None? ==>
      o.result == Failure(ApiError(404, "User does not exist"))
    ensures (Truthy(username) || Truthy(email)) && FindOne(s, UsernameOrEmail(username, email)).Some? &&
            password.Some? &&
            !IsPasswordCorrect(s.users[FindOne(s, UsernameOrEmail(username, email)).value], password.value) ==>
      o.result == Failure(ApiError(401, "Invalid user credentials"))
    ensures (Truthy(username) || Truthy(email)) && FindOne(s, UsernameOrEmail(username, email)).Some? &&
            password.Some? &&
            IsPasswordCorrect(s.users[FindOne(s, UsernameOrEmail(username, email)).value], password.value) ==>
      o.result.Success?
    ensures o.result.Success? ==>
      var r := o.result.value;
      var id := r.user.id;
      FindOne(s, UsernameOrEmail(username, email)) == Some(id) && password.Some? &&
      IsPasswordCorrect(s.users[id], password.value) &&
      o.next == s.(users := s.users[id := s.users[id].(refreshToken := Some(r.refreshToken))], nonce := s.nonce + 1) &&
      Verify(r.accessToken, s.config.accessSecret, false) ==
        Success(AccessClaims(id, s.users[id].username, s.users[id].email, s.users[id].fullName)) &&
      Verify(r.refreshToken, s.config.refreshSecret, false) == Success(RefreshClaims(id)) &&
      r.user == Select(id, s.users[id], false, false)
  {
    if !Truthy(username) && !Truthy(email) then
      Outcome(Failure(ApiError(400, "username or email is required")), s)
    else
      match FindOne(s, UsernameOrEmail(username, email))
      case None => Outcome(Failure(ApiError(404, "User does not exist")), s)
      case Some(id) =>
        if password.None? then
          // bcrypt.compare(undefined, digest) rejects
          Outcome(Failure(PlainError("data and hash arguments required")), s)
        else if !IsPasswordCorrect(s.users[id], password.value) then
          Outcome(Failure(ApiError(401, "Invalid user credentials")), s)
        else
          var issued := IssueTokens(s, id);
          var pair := issued.result.value;
          var loggedInUser := Select(id, issued.next.users[id], false, false);
          Outcome(Success(LoginReply(loggedInUser, pair.accessToken, pair.refreshToken)), issued.next)
  }

  // ---------------------------------------------------------------------------
  // logoutUser

  /** `logoutUser`: `$unset` the stored refresh token of the authenticated user, whatever it was. */
  function Logout(s: State, id: Id): (s': State)
    ensures s'.users.Keys == s.users.Keys
    ensures s'.config == s.config && s'.nextId == s.nextId && s'.nonce == s.nonce
    ensures id in s.users ==>
      s'.users[id].refreshToken == None && s'.users[id].(refreshToken := s.users[id].refreshToken) == s.users[id]
    ensures forall other :: other in s.users && other != id ==> s'.users[other] == s.users[other]
  {
    if id in s.users then s.(users := s.users[id := s.users[id].(refreshToken := None)]) else s
  }

  // ---------------------------------------------------------------------------
  // refreshAccessToken

  /** A token value JavaScript treats as true: present and not the empty string. */
  predicate TokenTruthy(t: Option<AuthToken>) {
    t.Some? && t.value != Malformed("")
  }

  /** `req.cookies.refreshToken || req.body.refreshToken`; a falsy result is no token. */
  function IncomingRefreshToken(cookie: Option<AuthToken>, body: Option<AuthToken>): (r: Option<AuthToken>)
    ensures r.Some? <==> TokenTruthy(cookie) || TokenTruthy(body)
    ensures TokenTruthy(cookie) ==> r == cookie
    ensures !TokenTruthy(cookie) && TokenTruthy(body) ==> r == body
  {
    if TokenTruthy(cookie) then cookie else if TokenTruthy(body) then body else None
  }

  /** The stored document the incoming token names, if it verifies and the document exists. */
  predicate Redeemable(s: State, incoming: Option<AuthToken>, expired: bool) {
    incoming.Some? &&
    var decoded := Verify(incoming.value, s.config.refreshSecret, expired);
    decoded.Success? && decoded.value.id in s.users &&
    s.users[decoded.value.id].refreshToken == incoming
  }

  /**
   * `refreshAccessToken`: the incoming token must verify under the refresh secret,
   * name an existing user and equal that user's stored token exactly; then a new pair
   * is issued and the stored token rotated. Every failure is a 401.
   */
  function Refresh(s: State, cookie: Option<AuthToken>, body: Option<AuthToken>, expired: bool)
    : (o: Outcome<TokenPair>)
    ensures o.result.Failure? ==> o.next == s && o.result.error.ApiError? && o.result.error.statusCode == 401
    ensures o.result.Success? <==> Redeemable(s, IncomingRefreshToken(cookie, body), expired)
    ensures IncomingRefreshToken(cookie, body).None? ==>
      o.result == Failure(ApiError(401, "unauthorized request"))
    ensures var incoming := IncomingRefreshToken(cookie, body);
      incoming.Some? && Verify(incoming.value, s.config.refreshSecret, expired).Failure? ==>
      o.result == Failure(ApiError(401, Message(Verify(incoming.value, s.config.refreshSecret, expired).error)))
    ensures var incoming := IncomingRefreshToken(cookie, body);
      incoming.Some? && Verify(incoming.value, s.config.refreshSecret, expired).Success? &&
      Verify(incoming.value, s.config.refreshSecret, expired).value.id !in s.users ==>
      o.result == Failure(ApiError(401, "invalid refresh token"))
    ensures var incoming := IncomingRefreshToken(cookie, body);
      incoming.Some? && Verify(incoming.value, s.config.refreshSecret, expired).Success? &&
      Verify(incoming.value, s.config.refreshSecret, expired).value.id in s.users &&
      !Redeemable(s, incoming, expired) ==>
      o.result == Failure(ApiError(401, "Refresh token is expired or used"))
    ensures o.result.Success? ==>
      var id := IncomingRefreshToken(cookie, body).value.claims.id;
      var pair := o.result.value;
      id in s.users &&
      o.next == s.(users := s.users[id := s.users[id].(refreshToken := Some(pair.refreshToken))], nonce := s.nonce + 1) &&
      Verify(pair.accessToken, s.config.accessSecret, false) ==
        Success(AccessClaims(id, s.users[id].username, s.users[id].email, s.users[id].fullName)) &&
      Verify(pair.refreshToken, s.config.refreshSecret, false) == Success(RefreshClaims(id)) &&
      IsIssuedRefreshToken(o.next, id, pair.refreshToken) && pair.refreshToken.issuedAt == s.nonce
  {
    var incoming := IncomingRefreshToken(cookie, body);
    if incoming.None? then
      Outcome(Failure(ApiError(401, "unauthorized request")), s)
    else
      match Verify(incoming.value, s.config.refreshSecret, expired)
      case Failure(e) => Outcome(Failure(ApiError(401, Message(e))), s)
      case Success(claims) =>
        if claims.id !in s.users then
          Outcome(Failure(ApiError(401, "invalid refresh token")), s)
        else if incoming != s.users[claims.id].refreshToken then
          Outcome(Failure(ApiError(401, "Refresh token is expired or used")), s)
        else
          var issued := IssueTokens(s, claims.id);
          Outcome(Success(issued.result.value), issued.next)
  }

  // ---------------------------------------------------------------------------
  // changePassword

  /**
   * `changePassword`: the old password must match; the new one is assigned and the
   * pre-save hook hashes it. The stored refresh token is kept.
   */
  function ChangePassword(s: State, id: Id, oldPassword: Option<string>, newPassword: Option<string>)
    : (o: Outcome<()>)
    ensures o.result.Failure? ==> o.next == s
    ensures id in s.users && oldPassword.Some? && !IsPasswordCorrect(s.users[id], oldPassword.value) ==>
      o.result == Failure(ApiError(400, "Invalid password"))
    ensures o.result.Success? <==>
      id in s.users && oldPassword.Some? && IsPasswordCorrect(s.users[id], oldPassword.value) &&
      newPassword.Some?
    ensures o.result.Success? ==>
      id in o.next.users &&
      var u := o.next.users[id];
      o.next == s.(users := s.users[id := u], nonce := s.nonce + 1) &&
      u.(password := s.users[id].password) == s.users[id] &&
      forall p :: IsPasswordCorrect(u, p) <==> p == newPassword.value
  {
    if id !in s.users then
      // `user` is null, so `user.isPasswordCorrect` throws
      Outcome(Failure(PlainError("TypeError")), s)
    else if oldPassword.None? then
      Outcome(Failure(PlainError("data and hash arguments required")), s)
    else if !IsPasswordCorrect(s.users[id], oldPassword.value) then
      Outcome(Failure(ApiError(400, "Invalid password")), s)
    else if newPassword.None? then
      // the pre-save hook's bcrypt.hash(undefined) rejects
      Outcome(Failure(PlainError("data and salt arguments required")), s)
    else
      var saved := PreSaveHook(s.users[id], newPassword, s.nonce);
      Outcome(Success(()), s.(users := s.users[id := saved], nonce := s.nonce + 1))
  }

  // ---------------------------------------------------------------------------
  // getCurrentUser

  /** `getCurrentUser`: the authenticated user without the digest and the refresh token. */
  function GetCurrentUser(s: State, id: Id): (r: Option<UserView>)
    ensures r.Some? <==> id in s.users
    ensures r.Some? ==> r.value == Select(id, s.users[id], false, false)
    ensures r.Some? ==> r.value.password == None && r.value.refreshToken == None
  {
    if id in s.users then Some(Select(id, s.users[id], false, false)) else None
  }

  // ---------------------------------------------------------------------------
  // updateAccountDetails

  /**
   * The `findByIdAndUpdate` of `updateAccountDetails`: both fields must be truthy;
   * the setters trim fullName and lower-case and trim email, validators do not run,
   * and the email unique index refuses a clash. A missing user updates nothing.
   */
  function SetAccountDetails(s: State, id: Id, fullName: Option<string>, email: Option<string>)
    : (o: Outcome<Option<User>>)
    ensures o.result.Failure? ==> o.next == s
    ensures !Truthy(fullName) || !Truthy(email) ==> o.result == Failure(ApiError(400, "All fields are required"))
    ensures Truthy(fullName) && Truthy(email) && id !in s.users ==> o == Outcome(Success(None), s)
    ensures Truthy(fullName) && Truthy(email) && id in s.users &&
            EmailTakenByOther(s.users, id, Normalize(email.value)) ==>
      o == Outcome(Failure(PlainError("E11000 duplicate key error")), s)
    ensures Truthy(fullName) && Truthy(email) && id in s.users &&
            !EmailTakenByOther(s.users, id, Normalize(email.value)) ==>
      o.result.Success? && o.result.value.Some?
    ensures o.result.Success? && o.result.value.Some? ==>
      var u := o.result.value.value;
      id in s.users && Truthy(fullName) && Truthy(email) &&
      o.next == s.(users := s.users[id := u]) &&
      u == s.users[id].(fullName := Trim(fullName.value), email := Normalize(email.value)) &&
      !EmailTakenByOther(s.users, id, u.email)
  {
    if !Truthy(fullName) || !Truthy(email) then
      Outcome(Failure(ApiError(400, "All fields are required")), s)
    else if id !in s.users then
      Outcome(Success(None), s)
    else
      var u := s.users[id].(fullName := Trim(fullName.value), email := Normalize(email.value));
      if EmailTakenByOther(s.users, id, u.email) then
        Outcome(Failure(PlainError("E11000 duplicate key error")), s)
      else
        Outcome(Success(Some(u)), s.(users := s.users[id := u]))
  }

  function Project(r: Result<Option<User>, Failure>, id: Id, keepPassword: bool, keepRefreshToken: bool)
    : Result<Option<UserView>, Failure>
  {
    match r
    case Failure(e) => Failure(e)
    case Success(None) => Success(None)
    case Success(Some(u)) => Success(Some(Select(id, u, keepPassword, keepRefreshToken)))
  }

  /** `updateAccountDetails` as written: `.select("-passsword")` names no field, so nothing is excluded. */
  function UpdateAccountDetailsAsWritten(s: State, id: Id, fullName: Option<string>, email: Option<string>)
    : (o: Outcome<Option<UserView>>)
    ensures o.next == SetAccountDetails(s, id, fullName, email).next
    ensures o.result.Success? <==> SetAccountDetails(s, id, fullName, email).result.Success?
    ensures o.result.Failure? ==> o.result == Failure(SetAccountDetails(s, id, fullName, email).result.error)
    ensures o.result.Success? && o.result.value.Some? ==>
      id in o.next.users && o.result.value.value == Select(id, o.next.users[id], true, true) &&
      o.result.value.value.password == Some(o.next.users[id].password)
  {
    var update := SetAccountDetails(s, id, fullName, email);
    Outcome(Project(update.result, id, true, true), update.next)
  }

  /** `updateAccountDetails` as intended: `.select("-password")`, like the two image updates. */
  function UpdateAccountDetails(s: State, id: Id, fullName: Option<string>, email: Option<string>)
    : (o: Outcome<Option<UserView>>)
    ensures o.next == SetAccountDetails(s, id, fullName, email).next
    ensures o.result.Success? <==> SetAccountDetails(s, id, fullName, email).result.Success?
    ensures o.result.Failure? ==> o.result == Failure(SetAccountDetails(s, id, fullName, email).result.error)
    ensures o.result.Success? && o.result.value.Some? ==>
      id in o.next.users && o.result.value.value == Select(id, o.next.users[id], false, true) &&
      o.result.value.value.password == None &&
      o.result.value.value.fullName == o.next.users[id].fullName &&
      o.result.value.value.email == o.next.users[id].email
  {
    var update := SetAccountDetails(s, id, fullName, email);
    Outcome(Project(update.result, id, false, true), update.next)
  }

  // ---------------------------------------------------------------------------
  // updateUserAvatar, updateUserCoverImage

  /**
   * `updateUserAvatar`: the file path and the upload's URL must both be truthy;
   * then only `avatar` is set. The answer keeps the refresh token (`.select("-password")`).
   */
  function UpdateUserAvatar(s: State, id: Id, path: Option<string>, upload: string -> Option<string>)
    : (o: Outcome<Option<UserView>>)
    ensures o.result.Failure? ==> o.next == s
    ensures !Truthy(path) ==> o.result == Failure(ApiError(400, "Avatar file is missing"))
    ensures Truthy(path) && !Truthy(upload(path.value)) ==>
      o.result == Failure(ApiError(400, "Error while uploading on avatar"))
    ensures Truthy(path) && Truthy(upload(path.value)) ==> o.result.Success?
    ensures o.result.Success? ==>
      Truthy(path) && Truthy(upload(path.value)) && (o.result.value.Some? <==> id in s.users)
    ensures o.result.Success? && id !in s.users ==> o.next == s
    ensures o.result.Success? && id in s.users ==>
      o.next == s.(users := s.users[id := s.users[id].(avatar := upload(path.value).value)]) &&
      o.result.value == Some(Select(id, o.next.users[id], false, true))
  {
    if !Truthy(path) then
      Outcome(Failure(ApiError(400, "Avatar file is missing")), s)
    else
      var avatar := upload(path.value);
      if !Truthy(avatar) then
        Outcome(Failure(ApiError(400, "Error while uploading on avatar")), s)
      else if id !in s.users then
        Outcome(Success(None), s)
      else
        var u := s.users[id].(avatar := avatar.value);
        Outcome(Success(Some(Select(id, u, false, true))), s.(users := s.users[id := u]))
  }

  /**
   * `updateUserCoverImage`: as `updateUserAvatar` for `coverImage`; a missing path
   * is reported with the avatar's message.
   */
  function UpdateUserCoverImage(s: State, id: Id, path: Option<string>, upload: string -> Option<string>)
    : (o: Outcome<Option<UserView>>)
    ensures o.result.Failure? ==> o.next == s
    ensures !Truthy(path) ==> o.result == Failure(ApiError(400, "Avatar file is missing"))
    ensures Truthy(path) && !Truthy(upload(path.value)) ==>
      o.result == Failure(ApiError(400, "Error while uploading on coverImage"))
    ensures Truthy(path) && Truthy(upload(path.value)) ==> o.result.Success?
    ensures o.result.Success? ==>
      Truthy(path) && Truthy(upload(path.value)) && (o.result.value.Some? <==> id in s.users)
    ensures o.result.Success? && id !in s.users ==> o.next == s
    ensures o.result.Success? && id in s.users ==>
      o.next == s.(users := s.users[id := s.users[id].(coverImage := upload(path.value).value)]) &&
      o.result.value == Some(Select(id, o.next.users[id], false, true))
  {
    if !Truthy(path) then
      Outcome(Failure(ApiError(400, "Avatar file is missing")), s)
    else
      var coverImage := upload(path.value);
      if !Truthy(coverImage) then
        Outcome(Failure(ApiError(400, "Error while uploading on coverImage")), s)
      else if id !in s.users then
        Outcome(Success(None), s)
      else
        var u := s.users[id].(coverImage := coverImage.value);
        Outcome(Success(Some(Select(id, u, false, true))), s.(users := s.users[id := u]))
  }
}

=== FILE: session_properties.dfy ===
/**
 * Properties of the session logic that relate several calls: the store invariant
 * every handler keeps, the lookup a unique username resolves to, duplicate
 * registration, password change followed by login, and the revocation of refresh
 * tokens by logout, rotation and a fresh login, which holds for every sequence of
 * later requests.
 */
module SessionProperties {

  import opened Wrappers
  import opened ApiErrors
  import opened Text
  import opened Jwt
  import opened UserModel
  import opened Session

  // ---------------------------------------------------------------------------
  // Lookups

  /** On a valid store `findOne` misses exactly when no document matches. */
  lemma FindOneMissesOnlyWithoutMatch(s: State, q: Query)
    requires Valid(s)
    ensures FindOne(s, q).None? <==> forall id :: id in s.users ==> !Matches(s.users[id], q)
  {
    if FindOne(s, q).None? {
      forall id | id in s.users ensures !Matches(s.users[id], q) {
        assert id < s.nextId;
      }
    }
  }

  /**
   * Usernames are unique, so looking one up finds its own document, however it is
   * typed: any name that the setters turn into the stored username will do.
   */
  lemma FindByUsername(s: State, id: Id, name: string)
    requires Valid(s) && id in s.users && Normalize(name) == s.users[id].username
    ensures FindOne(s, UsernameOrEmail(Some(name), None)) == Some(id)
  {
    var q := UsernameOrEmail(Some(name), None);
    assert Matches(s.users[id], q);
    FindOneMissesOnlyWithoutMatch(s, q);
  }

  // ---------------------------------------------------------------------------
  // The store invariant is kept by every handler

  lemma IssueTokensPreservesValid(s: State, id: Id)
    requires Valid(s)
    ensures Valid(IssueTokens(s, id).next)
  {
  }

  /** What a successful creation did, read off its contract. */
  lemma CreateUploadedSucceeded(s: State, f: RegisterForm, avatar: string, coverImage: Option<string>)
    requires CreateUploaded(s, f, avatar, coverImage).result.Success?
    ensures var o := CreateUploaded(s, f, avatar, coverImage);
      s.nextId in o.next.users &&
      var u := o.next.users[s.nextId];
      o.next == s.(users := s.users[s.nextId := u], nextId := s.nextId + 1, nonce := s.nonce + 1) &&
      f.username.Some? && f.email.Some? &&
      u.username != "" && u.username == Normalize(f.username.value) && u.email == Normalize(f.email.value) &&
      u.refreshToken == None && !Taken(s.users, u.username, u.email)
  {
  }

  /** What a successful registration did. */
  lemma RegisterSucceeded(s: State, f: RegisterForm, upload: string -> Option<string>)
    requires Register(s, f, upload).result.Success?
    ensures var o := Register(s, f, upload);
      s.nextId in o.next.users &&
      var u := o.next.users[s.nextId];
      o.next == s.(users := s.users[s.nextId := u], nextId := s.nextId + 1, nonce := s.nonce + 1) &&
      f.username.Some? && f.email.Some? &&
      u.username != "" && u.username == Normalize(f.username.value) && u.email == Normalize(f.email.value) &&
      u.refreshToken == None && !Taken(s.users, u.username, u.email)
  {
    var avatar := upload(f.avatarPath.value).value;
    var coverImage := if Truthy(f.coverImagePath) then upload(f.coverImagePath.value) else None;
    assert Register(s, f, upload) == CreateUploaded(s, f, avatar, coverImage);
    CreateUploadedSucceeded(s, f, avatar, coverImage);
  }

  /** Inserting a user whose username and email are free, under the next id, keeps the invariant. */
  lemma InsertPreservesValid(s: State, u: User)
    requires Valid(s)
    requires u.username != "" && u.refreshToken == None && !Taken(s.users, u.username, u.email)
    ensures Valid(s.(users := s.users[s.nextId := u], nextId := s.nextId + 1, nonce := s.nonce + 1))
  {
    var s' := s.(users := s.users[s.nextId := u], nextId := s.nextId + 1, nonce := s.nonce + 1);
    forall i, j | i in s'.users && j in s'.users && i != j
      ensures s'.users[i].username != s'.users[j].username && s'.users[i].email != s'.users[j].email
    {
      if i == s.nextId {
        assert !(j in s.users && (s.users[j].username == u.username || s.users[j].email == u.email));
      } else if j == s.nextId {
        assert !(i in s.users && (s.users[i].username == u.username || s.users[i].email == u.email));
      }
    }
  }

  lemma RegisterPreservesValid(s: State, f: RegisterForm, upload: string -> Option<string>)
    requires Valid(s)
    ensures Valid(Register(s, f, upload).next)
  {
    var o := Register(s, f, upload);
    if o.result.Success? {
      RegisterSucceeded(s, f, upload);
      InsertPreservesValid(s, o.next.users[s.nextId]);
    }
  }

  lemma LoginPreservesValid(s: State, username: Option<string>, email: Option<string>, password: Option<string>)
    requires Valid(s)
    ensures Valid(Login(s, username, email, password).next)
  {
    var o := Login(s, username, email, password);
    if o.result.Success? {
      var id := o.result.value.user.id;
      IssueTokensPreservesValid(s, id);
      assert o.next == IssueTokens(s, id).next;
    }
  }

  lemma LogoutPreservesValid(s: State, id: Id)
    requires Valid(s)
    ensures Valid(Logout(s, id))
  {
  }

  lemma RefreshPreservesValid(s: State, cookie: Option<AuthToken>, body: Option<AuthToken>, expired: bool)
    requires Valid(s)
    ensures Valid(Refresh(s, cookie, body, expired).next)
  {
  }

  lemma ChangePasswordPreservesValid(s: State, id: Id, oldPassword: Option<string>, newPassword: Option<string>)
    requires Valid(s)
    ensures Valid(ChangePassword(s, id, oldPassword, newPassword).next)
  {
  }

  /** Replacing a user's document, keeping its username and token and taking a free email, keeps the invariant. */
  lemma ReplacePreservesValid(s: State, id: Id, u: User)
    requires Valid(s) && id in s.users
    requires u.username == s.users[id].username && u.refreshToken == s.users[id].refreshToken
    requires !EmailTakenByOther(s.users, id, u.email)
    ensures Valid(s.(users := s.users[id := u]))
  {
    var s' := s.(users := s.users[id := u]);
    forall i, j | i in s'.users && j in s'.users && i != j
      ensures s'.users[i].username != s'.users[j].username && s'.users[i].email != s'.users[j].email
    {
      if i == id {
        assert !(j in s.users && j != id && s.users[j].email == u.email);
      } else if j == id {
        assert !(i in s.users && i != id && s.users[i].email == u.email);
      }
    }
  }

  lemma SetAccountDetailsPreservesValid(s: State, id: Id, fullName: Option<string>, email: Option<string>)
    requires Valid(s)
    ensures Valid(SetAccountDetails(s, id, fullName, email).next)
  {
    var o := SetAccountDetails(s, id, fullName, email);
    if o.result.Success? && o.result.value.Some? {
      ReplacePreservesValid(s, id, o.result.value.value);
    }
  }

  lemma UpdateUserAvatarPreservesValid(s: State, id: Id, path: Option<string>, upload: string -> Option<string>)
    requires Valid(s)
    ensures Valid(UpdateUserAvatar(s, id, path, upload).next)
  {
  }

  lemma UpdateUserCoverImagePreservesValid(s: State, id: Id, path: Option<string>, upload: string -> Option<string>)
    requires Valid(s)
    ensures Valid(UpdateUserCoverImage(s, id, path, upload).next)
  {
  }

  // ---------------------------------------------------------------------------
  // Sequences of requests

  /** Every handler that changes the store, with its inputs. */
  datatype Request =
    | RegisterRequest(form: RegisterForm, upload: string -> Option<string>)
    | LoginRequest(username: Option<string>, email: Option<string>, password: Option<string>)
    | LogoutRequest(id: Id)
    | RefreshRequest(cookie: Option<AuthToken>, body: Option<AuthToken>, expired: bool)
    | ChangePasswordRequest(id: Id, oldPassword: Option<string>, newPassword: Option<string>)
    | UpdateAccountRequest(id: Id, fullName: Option<string>, email: Option<string>)
    | UpdateAvatarRequest(id: Id, path: Option<string>, upload: string -> Option<string>)
    | UpdateCoverImageRequest(id: Id, path: Option<string>, upload: string -> Option<string>)

  function Step(s: State, req: Request): State {
    match req
    case RegisterRequest(f, upload) => Register(s, f, upload).next
    case LoginRequest(username, email, password) => Login(s, username, email, password).next
    case LogoutRequest(id) => Logout(s, id)
    case RefreshRequest(cookie, body, expired) => Refresh(s, cookie, body, expired).next
    case ChangePasswordRequest(id, oldPassword, newPassword) => ChangePassword(s, id, oldPassword, newPassword).next
    case UpdateAccountRequest(id, fullName, email) => UpdateAccountDetails(s, id, fullName, email).next
    case UpdateAvatarRequest(id, path, upload) => UpdateUserAvatar(s, id, path, upload).next
    case UpdateCoverImageRequest(id, path, upload) => UpdateUserCoverImage(s, id, path, upload).next
  }

  /** The store after handling `reqs` one after the other. */
  function Run(s: State, reqs: seq<Request>): State
    decreases |reqs|
  {
    if reqs == [] then s else Run(Step(s, reqs[0]), reqs[1..])
  }

  lemma StepPreservesValid(s: State, req: Request)
    requires Valid(s)
    ensures Valid(Step(s, req))
  {
    match req
    case RegisterRequest(f, upload) => RegisterPreservesValid(s, f, upload);
    case LoginRequest(username, email, password) => LoginPreservesValid(s, username, email, password);
    case LogoutRequest(id) => LogoutPreservesValid(s, id);
    case RefreshRequest(cookie, body, expired) => RefreshPreservesValid(s, cookie, body, expired);
    case ChangePasswordRequest(id, oldPassword, newPassword) =>
      ChangePasswordPreservesValid(s, id, oldPassword, newPassword);
    case UpdateAccountRequest(id, fullName, email) => SetAccountDetailsPreservesValid(s, id, fullName, email);
    case UpdateAvatarRequest(id, path, upload) => UpdateUserAvatarPreservesValid(s, id, path, upload);
    case UpdateCoverImageRequest(id, path, upload) => UpdateUserCoverImagePreservesValid(s, id, path, upload);
  }

  lemma {:induction false} RunPreservesValid(s: State, reqs: seq<Request>)
    requires Valid(s)
    ensures Valid(Run(s, reqs))
    decreases |reqs|
  {
    if reqs != [] {
      StepPreservesValid(s, reqs[0]);
      RunPreservesValid(Step(s, reqs[0]), reqs[1..]);
    }
  }

  // ---------------------------------------------------------------------------
  // Revocation

  /**
   * A refresh token that is no longer usable: it was issued before the counter's
   * current value (or is no token at all), and no document stores it.
   */
  predicate Revoked(s: State, t: AuthToken) {
    (t.Signed? ==> t.issuedAt < s.nonce) &&
    forall id :: id in s.users ==> s.users[id].refreshToken != Some(t)
  }

  /**
   * A revoked token is refused with 401 and the store is left alone, whether it
   * arrives as the cookie or, when the cookie is absent or empty, in the body.
   */
  lemma RevokedIsRejected(s: State, t: AuthToken, cookie: Option<AuthToken>, body: Option<AuthToken>, expired: bool)
    requires Revoked(s, t) && IncomingRefreshToken(cookie, body) == Some(t)
    ensures var o := Refresh(s, cookie, body, expired);
      o.result.Failure? && o.result.error == ApiError(401, o.result.error.message) && o.next == s
  {
  }

  /**
   * Between two stores, the counter did not go back and every stored refresh token
   * is either the one that user already had or was issued at or after `s`'s counter.
   */
  predicate IssuesOnlyFresh(s: State, s': State) {
    s.nonce <= s'.nonce &&
    forall id :: id in s'.users && s'.users[id].refreshToken.Some? ==>
      (id in s.users && s'.users[id].refreshToken == s.users[id].refreshToken) ||
      (s'.users[id].refreshToken.value.Signed? && s'.users[id].refreshToken.value.issuedAt >= s.nonce)
  }

  lemma StepIssuesOnlyFresh(s: State, req: Request)
    ensures IssuesOnlyFresh(s, Step(s, req))
  {
    match req
    case RegisterRequest(f, upload) =>
      if Register(s, f, upload).result.Success? {
        RegisterSucceeded(s, f, upload);
      }
    case LoginRequest(_, _, _) =>
    case LogoutRequest(_) =>
    case RefreshRequest(_, _, _) =>
    case ChangePasswordRequest(_, _, _) =>
    case UpdateAccountRequest(_, _, _) =>
    case UpdateAvatarRequest(_, _, _) =>
    case UpdateCoverImageRequest(_, _, _) =>
  }

  lemma RevokedStaysRevoked(s: State, s': State, t: AuthToken)
    requires IssuesOnlyFresh(s, s') && Revoked(s, t)
    ensures Revoked(s', t)
  {
  }

  /** Once revoked, a refresh token stays revoked whatever requests follow. */
  lemma {:induction false} RunKeepsRevoked(s: State, reqs: seq<Request>, t: AuthToken)
    requires Revoked(s, t)
    ensures Revoked(Run(s, reqs), t)
    decreases |reqs|
  {
    if reqs != [] {
      StepIssuesOnlyFresh(s, reqs[0]);
      RevokedStaysRevoked(s, Step(s, reqs[0]), t);
      RunKeepsRevoked(Step(s, reqs[0]), reqs[1..], t);
    }
  }

  /** A token stored for `id` is stored for no other user, since its claims name `id`. */
  lemma StoredOnlyForOwner(s: State, id: Id, t: AuthToken, other: Id)
    requires Valid(s) && id in s.users && s.users[id].refreshToken == Some(t)
    requires other in s.users && other != id
    ensures s.users[other].refreshToken != Some(t)
  {
    assert t.claims == RefreshClaims(id);
  }

  /** Logout revokes the token the user held. */
  lemma LogoutRevokes(s: State, id: Id)
    requires Valid(s) && id in s.users && s.users[id].refreshToken.Some?
    ensures Revoked(Logout(s, id), s.users[id].refreshToken.value)
  {
    var t := s.users[id].refreshToken.value;
    forall other | other in s.users && other != id ensures s.users[other].refreshToken != Some(t) {
      StoredOnlyForOwner(s, id, t, other);
    }
  }

  /** A successful refresh revokes the token it was given (rotation). */
  lemma RotationRevokes(s: State, cookie: Option<AuthToken>, body: Option<AuthToken>, expired: bool)
    requires Valid(s) && Refresh(s, cookie, body, expired).result.Success?
    ensures Revoked(Refresh(s, cookie, body, expired).next, IncomingRefreshToken(cookie, body).value)
  {
    var t := IncomingRefreshToken(cookie, body).value;
    var id := t.claims.id;
    var s' := Refresh(s, cookie, body, expired).next;
    assert s.users[id].refreshToken == Some(t);
    forall other | other in s'.users ensures s'.users[other].refreshToken != Some(t) {
      if other != id {
        StoredOnlyForOwner(s, id, t, other);
      }
    }
  }

  /** A successful login revokes the refresh token the user held before. */
  lemma LoginRevokesPrevious(s: State, username: Option<string>, email: Option<string>, password: Option<string>)
    requires Valid(s)
    requires Login(s, username, email, password).result.Success?
    requires s.users[Login(s, username, email, password).result.value.user.id].refreshToken.Some?
    ensures var id := Login(s, username, email, password).result.value.user.id;
      Revoked(Login(s, username, email, password).next, s.users[id].refreshToken.value)
  {
    var o := Login(s, username, email, password);
    var id := o.result.value.user.id;
    var t := s.users[id].refreshToken.value;
    forall other | other in o.next.users ensures o.next.users[other].refreshToken != Some(t) {
      if other != id {
        StoredOnlyForOwner(s, id, t, other);
      }
    }
  }

  /**
   * After logout, the user's old refresh token is refused, now and after any later
   * requests, whether it is sent as the cookie or in the body.
   */
  lemma NoRefreshAfterLogout(s: State, id: Id, reqs: seq<Request>,
                             cookie: Option<AuthToken>, body: Option<AuthToken>, expired: bool)
    requires Valid(s) && id in s.users && s.users[id].refreshToken.Some?
    requires IncomingRefreshToken(cookie, body) == s.users[id].refreshToken
    ensures Refresh(Run(Logout(s, id), reqs), cookie, body, expired).result.Failure?
  {
    var t := s.users[id].refreshToken.value;
    LogoutRevokes(s, id);
    RunKeepsRevoked(Logout(s, id), reqs, t);
    RevokedIsRejected(Run(Logout(s, id), reqs), t, cookie, body, expired);
  }

  /**
   * After a rotation, the token that was rotated out is refused, now and after any
   * later requests, through either channel.
   */
  lemma NoRefreshAfterRotation(s: State, cookie: Option<AuthToken>, body: Option<AuthToken>, expired: bool,
                               reqs: seq<Request>, cookie': Option<AuthToken>, body': Option<AuthToken>,
                               expired': bool)
    requires Valid(s) && Refresh(s, cookie, body, expired).result.Success?
    requires IncomingRefreshToken(cookie', body') == IncomingRefreshToken(cookie, body)
    ensures var s' := Run(Refresh(s, cookie, body, expired).next, reqs);
      Refresh(s', cookie', body', expired').result.Failure?
  {
    var t := IncomingRefreshToken(cookie, body).value;
    RotationRevokes(s, cookie, body, expired);
    RunKeepsRevoked(Refresh(s, cookie, body, expired).next, reqs, t);
    RevokedIsRejected(Run(Refresh(s, cookie, body, expired).next, reqs), t, cookie', body', expired');
  }

  /** Logging out twice is logging out once. */
  lemma LogoutIdempotent(s: State, id: Id)
    ensures Logout(Logout(s, id), id) == Logout(s, id)
  {
  }

  // ---------------------------------------------------------------------------
  // Registration and password change

  /**
   * Registration is refused, and the store unchanged, when a stored user already
   * holds the normalized username or email.
   */
  lemma RegisterRejectsTaken(s: State, f: RegisterForm, upload: string -> Option<string>, id: Id)
    requires id in s.users
    requires (f.username.Some? && s.users[id].username == Normalize(f.username.value)) ||
             (f.email.Some? && s.users[id].email == Normalize(f.email.value))
    ensures Register(s, f, upload).result.Failure? && Register(s, f, upload).next == s
  {
    if Register(s, f, upload).result.Success? {
      RegisterSucceeded(s, f, upload);
    }
  }

  /**
   * The duplicate pre-check compares through the setters: on a valid store, a form
   * whose username or email normalizes to a stored one gets the plain `Error` "409"
   * (unless a field is blank), before the avatar is even looked at.
   */
  lemma RegisterTakenAnswers409(s: State, f: RegisterForm, upload: string -> Option<string>, id: Id)
    requires Valid(s) && id in s.users && !AnySuppliedBlank(f)
    requires (f.username.Some? && s.users[id].username == Normalize(f.username.value)) ||
             (f.email.Some? && s.users[id].email == Normalize(f.email.value))
    ensures Register(s, f, upload) == Outcome(Failure(PlainError("409")), s)
  {
    var q := UsernameOrEmail(f.username, f.email);
    assert Matches(s.users[id], q);
    FindOneMissesOnlyWithoutMatch(s, q);
  }

  /**
   * Registration succeeds when every field survives the setters non-empty, the
   * password is not blank, no stored user holds the normalized username or email,
   * and the avatar is present and uploads.
   */
  lemma RegisterSucceedsWhenUnclaimed(s: State, f: RegisterForm, upload: string -> Option<string>)
    requires f.username.Some? && f.email.Some? && f.fullName.Some? && f.password.Some?
    requires Normalize(f.username.value) != "" && Normalize(f.email.value) != ""
    requires Trim(f.fullName.value) != "" && Trim(f.password.value) != ""
    requires !Taken(s.users, Normalize(f.username.value), Normalize(f.email.value))
    requires Truthy(f.avatarPath) && Truthy(upload(f.avatarPath.value))
    ensures Register(s, f, upload).result.Success?
    ensures Register(s, f, upload).next.users[s.nextId].username == Normalize(f.username.value)
  {
    ToLowerKeepsBlankness(f.username.value);
    ToLowerKeepsBlankness(f.email.value);
    assert !AnySuppliedBlank(f);
    var cover := if Truthy(f.coverImagePath) then upload(f.coverImagePath.value) else None;
    assert Register(s, f, upload) == CreateUploaded(s, f, upload(f.avatarPath.value).value, cover);
  }

  /** Of two registrations with the same username, or the same email, the second fails. */
  lemma SecondRegistrationFails(s: State, f: RegisterForm, g: RegisterForm,
                                upload: string -> Option<string>, upload': string -> Option<string>)
    requires Register(s, f, upload).result.Success?
    requires g.username == f.username || g.email == f.email
    ensures var s' := Register(s, f, upload).next;
      Register(s', g, upload').result.Failure? && Register(s', g, upload').next == s'
  {
    var s' := Register(s, f, upload).next;
    RegisterSucceeded(s, f, upload);
    if g.username == f.username {
      NormalizeIdempotent(f.username.value);
    } else {
      NormalizeIdempotent(f.email.value);
    }
    RegisterRejectsTaken(s', g, upload', s.nextId);
  }

  /** Of two well-formed registrations with one username, exactly the first succeeds. */
  lemma SameNameRegistersOnce(s: State, f: RegisterForm, g: RegisterForm,
                              upload: string -> Option<string>, upload': string -> Option<string>)
    requires f.username.Some? && f.email.Some? && f.fullName.Some? && f.password.Some?
    requires Normalize(f.username.value) != "" && Normalize(f.email.value) != ""
    requires Trim(f.fullName.value) != "" && Trim(f.password.value) != ""
    requires !Taken(s.users, Normalize(f.username.value), Normalize(f.email.value))
    requires Truthy(f.avatarPath) && Truthy(upload(f.avatarPath.value))
    requires g.username == f.username
    ensures Register(s, f, upload).result.Success?
    ensures Register(Register(s, f, upload).next, g, upload').result.Failure?
  {
    RegisterSucceedsWhenUnclaimed(s, f, upload);
    SecondRegistrationFails(s, f, g, upload, upload');
  }

  /**
   * After a password change, logging in by username (typed in any form the setters
   * turn into the stored one) works with the new password and, if it differs, is
   * refused with 401 for the old one.
   */
  lemma ChangePasswordThenLogin(s: State, id: Id, typed: string, oldPassword: string, newPassword: string)
    requires Valid(s)
    requires ChangePassword(s, id, Some(oldPassword), Some(newPassword)).result.Success?
    requires Normalize(typed) == s.users[id].username
    ensures var s' := ChangePassword(s, id, Some(oldPassword), Some(newPassword)).next;
      var name := Some(typed);
      Login(s', name, None, Some(newPassword)).result.Success? &&
      Login(s', name, None, Some(newPassword)).result.value.user.id == id &&
      (oldPassword != newPassword ==>
         Login(s', name, None, Some(oldPassword)).result == Failure(ApiError(401, "Invalid user credentials")))
  {
    var s' := ChangePassword(s, id, Some(oldPassword), Some(newPassword)).next;
    ChangePasswordPreservesValid(s, id, Some(oldPassword), Some(newPassword));
    assert s'.users[id].username == s.users[id].username;
    FindByUsername(s', id, typed);
  }

  /**
   * Login by username, typed in any form the setters turn into the stored one,
   * succeeds with the right password and logs in that very user.
   */
  lemma LoginWithCorrectPassword(s: State, id: Id, typed: string, password: string)
    requires Valid(s) && id in s.users && Normalize(typed) == s.users[id].username
    requires IsPasswordCorrect(s.users[id], password)
    ensures Login(s, Some(typed), None, Some(password)).result.Success?
    ensures Login(s, Some(typed), None, Some(password)).result.value.user.id == id
  {
    FindByUsername(s, id, typed);
  }

  // ---------------------------------------------------------------------------
  // What the answers disclose

  /**
   * `updateAccountDetails` as written answers a successful update with the stored
   * bcrypt digest, which checks the user's password; the corrected projection
   * answers the same update without it.
   */
  lemma UpdateAccountDetailsLeaksDigest(s: State, id: Id, fullName: string, email: string, p: string)
    requires id in s.users && fullName != "" && email != ""
    requires !EmailTakenByOther(s.users, id, Normalize(email))
    ensures var leaked := UpdateAccountDetailsAsWritten(s, id, Some(fullName), Some(email)).result;
      leaked.Success? && leaked.value.Some? && leaked.value.value.password.Some? &&
      (Bcrypt.Compare(p, leaked.value.value.password.value) <==> IsPasswordCorrect(s.users[id], p))
    ensures var fixed := UpdateAccountDetails(s, id, Some(fullName), Some(email)).result;
      fixed.Success? && fixed.value.Some? && fixed.value.value.password == None
  {
    var update := SetAccountDetails(s, id, Some(fullName), Some(email));
    assert update.result.Success? && update.result.value.Some?;
    assert update.next.users[id].password == s.users[id].password;
  }

  /** No answer that carries a user, once corrected, carries its password digest. */
  lemma NoAnswerCarriesDigest(s: State, id: Id, f: RegisterForm, upload: string -> Option<string>,
                              username: Option<string>, email: Option<string>, password: Option<string>,
                              fullName: Option<string>, path: Option<string>)
    ensures var r := Register(s, f, upload).result; r.Success? ==> r.value.password == None
    ensures var r := Login(s, username, email, password).result; r.Success? ==> r.value.user.password == None
    ensures var r := GetCurrentUser(s, id); r.Some? ==> r.value.password == None
    ensures var r := UpdateAccountDetails(s, id, fullName, email).result;
      r.Success? && r.value.Some? ==> r.value.value.password == None
    ensures var r := UpdateUserAvatar(s, id, path, upload).result;
      r.Success? && r.value.Some? ==> r.value.value.password == None
    ensures var r := UpdateUserCoverImage(s, id, path, upload).result;
      r.Success? && r.value.Some? ==> r.value.value.password == None
  {
    if Register(s, f, upload).result.Success? {
      RegisterSucceeded(s, f, upload);
    }
  }
}

=== FILE: text.dfy ===
/**
 * The two string operations the user schema and controller apply to input:
 * `String.prototype.trim` and `String.prototype.toLowerCase`.
 */
module Text {

  /** ECMAScript WhiteSpace and LineTerminator: exactly what `trim` removes. */
  predicate IsWhitespace(c: char) {
    c == '\t' || c == '\n' || c == '\U{B}' || c == '\U{C}' || c == '\r' || c == ' ' ||
    c == '\U{A0}' || c == '\U{1680}' || ('\U{2000}' <= c <= '\U{200A}') ||
    c == '\U{2028}' || c == '\U{2029}' || c == '\U{202F}' || c == '\U{205F}' ||
    c == '\U{3000}' || c == '\U{FEFF}'
  }

  predicate AllWhitespace(s: string) {
    forall i :: 0 <= i < |s| ==> IsWhitespace(s[i])
  }

  /** The first index at or after `i` whose character is not whitespace, or `|s|`. */
  function SkipLeading(s: string, i: nat): (k: nat)
    requires i <= |s|
    ensures i <= k <= |s|
    ensures forall j :: i <= j < k ==> IsWhitespace(s[j])
    ensures k < |s| ==> !IsWhitespace(s[k])
    decreases |s| - i
  {
    if i < |s| && IsWhitespace(s[i]) then SkipLeading(s, i + 1) else i
  }

  /** The end of `s[..j]` once its trailing whitespace is dropped. */
  function SkipTrailing(s: string, j: nat): (k: nat)
    requires j <= |s|
    ensures k <= j
    ensures forall m :: k <= m < j ==> IsWhitespace(s[m])
    ensures 0 < k ==> !IsWhitespace(s[k - 1])
  {
    if 0 < j && IsWhitespace(s[j - 1]) then SkipTrailing(s, j - 1) else j
  }

  /** `s.trim()`: a slice of `s` that neither starts nor ends with whitespace, empty exactly when `s` is blank. */
  function Trim(s: string): (r: string)
    ensures |r| <= |s|
    ensures r != [] ==> !IsWhitespace(r[0]) && !IsWhitespace(r[|r| - 1])
    ensures r == [] <==> AllWhitespace(s)
  {
    var start := SkipLeading(s, 0);
    var end := SkipTrailing(s, |s|);
    if start < end then s[start..end] else []
  }

  /**
   * What `trim` keeps: the input minus exactly its leading and trailing whitespace,
   * a slice that begins and ends at a character that is not whitespace.
   */
  lemma TrimStripsOuterWhitespace(s: string)
    ensures AllWhitespace(s) ==> Trim(s) == []
    ensures !AllWhitespace(s) ==>
      exists k, j :: 0 <= k < j <= |s| && Trim(s) == s[k..j] &&
                     AllWhitespace(s[..k]) && AllWhitespace(s[j..]) &&
                     !IsWhitespace(s[k]) && !IsWhitespace(s[j - 1])
  {
    var start := SkipLeading(s, 0);
    var end := SkipTrailing(s, |s|);
    if !AllWhitespace(s) {
      assert start < end;
      assert Trim(s) == s[start..end];
      assert AllWhitespace(s[..start]);
      assert AllWhitespace(s[end..]);
    }
  }

  /** `toLowerCase` on ASCII letters; every other character is kept. */
  function LowerChar(c: char): (d: char)
    ensures !('A' <= d <= 'Z')
    ensures IsWhitespace(d) <==> IsWhitespace(c)
  {
    if 'A' <= c <= 'Z' then (c as int + 32) as char else c
  }

  predicate NoUpperCase(s: string) {
    forall i :: 0 <= i < |s| ==> !('A' <= s[i] <= 'Z')
  }

  /** `s.toLowerCase()`, character by character, for the ASCII alphabet. */
  function ToLower(s: string): (r: string)
    ensures |r| == |s|
    ensures forall i :: 0 <= i < |s| ==> r[i] == LowerChar(s[i])
    ensures NoUpperCase(r)
  {
    seq(|s|, i requires 0 <= i < |s| => LowerChar(s[i]))
  }

  /** Lower-casing neither creates nor removes whitespace, so it keeps blank strings blank and others not. */
  lemma ToLowerKeepsBlankness(s: string)
    ensures AllWhitespace(ToLower(s)) <==> AllWhitespace(s)
    ensures Trim(ToLower(s)) == [] <==> Trim(s) == []
  {
    if AllWhitespace(ToLower(s)) {
      forall i | 0 <= i < |s| ensures IsWhitespace(s[i]) {
        assert IsWhitespace(ToLower(s)[i]);
      }
    }
  }

  /** The schema setters for `username` and `email`: lower-case, then trim. */
  function Normalize(s: string): string {
    Trim(ToLower(s))
  }

  lemma ToLowerIdempotent(s: string)
    ensures ToLower(ToLower(s)) == ToLower(s)
  {
  }

  lemma ToLowerKeepsLowered(s: string)
    requires NoUpperCase(s)
    ensures ToLower(s) == s
  {
  }

  /** A string that neither starts nor ends with whitespace is its own trim. */
  lemma {:induction false} TrimOfTrimmed(s: string)
    requires s != [] ==> !IsWhitespace(s[0]) && !IsWhitespace(s[|s| - 1])
    ensures Trim(s) == s
  {
    if s != [] {
      assert SkipLeading(s, 0) == 0;
      assert SkipTrailing(s, |s|) == |s|;
      assert s[0..|s|] == s;
    }
  }

  lemma TrimIdempotent(s: string)
    ensures Trim(Trim(s)) == Trim(s)
  {
    TrimOfTrimmed(Trim(s));
  }

  /** Trimming keeps only characters of the input, so it keeps a lower-cased string lower-cased. */
  lemma TrimKeepsNoUpperCase(s: string)
    requires NoUpperCase(s)
    ensures NoUpperCase(Trim(s))
  {
    var start := SkipLeading(s, 0);
    var end := SkipTrailing(s, |s|);
    if start < end {
      var r := s[start..end];
      forall i | 0 <= i < |r| ensures !('A' <= r[i] <= 'Z') {
        assert r[i] == s[start + i];
      }
    }
  }

  /** Running the username/email setters again changes nothing. */
  lemma NormalizeIdempotent(s: string)
    ensures Normalize(Normalize(s)) == Normalize(s)
  {
    var n := Normalize(s);
    TrimKeepsNoUpperCase(ToLower(s));
    ToLowerKeepsLowered(n);
    TrimIdempotent(ToLower(s));
  }

  /** The controller lower-cases the username before the schema setters lower-case and trim it again. */
  lemma NormalizeAfterLower(s: string)
    ensures Normalize(ToLower(s)) == Normalize(s)
  {
    ToLowerIdempotent(s);
  }
}

=== FILE: user_controller.dfy ===
/**
 * The user controller: one store object whose document map the handlers read and
 * update in place. Each handler is proved to answer and to leave the store exactly
 * as the corresponding function of `Session` says, and to keep the store's
 * invariant; the lemmas of `SessionProperties` then apply to it. `UpdateAccount`
 * answers with the corrected projection (`Session.UpdateAccountDetails`); the
 * answer of the code as written is `Session.UpdateAccountDetailsAsWritten`, and
 * both leave the store alike.
 */
module UserController {

  import opened Wrappers
  import opened ApiErrors
  import opened Jwt
  import opened UserModel
  import opened Session
  import opened SessionProperties

  class Store {
    const config: Config
    var users: map<Id, User>
    var nextId: nat
    var nonce: nat

    /** The store as a value. */
    function Value(): State
      reads this
    {
      State(config, users, nextId, nonce)
    }

    ghost predicate Valid()
      reads this
    {
      Session.Valid(Value())
    }

    /** An empty store under the given secrets and expiries. */
    constructor (config: Config)
      ensures Valid() && Value() == State(config, map[], 0, 0)
    {
      this.config := config;
      users := map[];
      nextId := 0;
      nonce := 0;
    }

    /**
     * `generateAccessAndRefereshTokens`: load the document, sign both tokens, set the
     * refresh token on it and save it through the pre-save hook.
     */
    method GenerateAccessAndRefreshTokens(id: Id) returns (r: Result<TokenPair, Failure>)
      requires Valid()
      modifies this
      ensures Valid()
      ensures Outcome(r, Value()) == IssueTokens(old(Value()), id)
    {
      if id !in users {
        return Failure(ApiError(500, "Something went wrong while generating tokens"));
      }
      var user := new UserDocument.Load(id, users[id]);
      var accessToken := GenerateAccessToken(id, user.record, config, nonce);
      var refreshToken := GenerateRefreshToken(id, config, nonce);
      user.SetRefreshToken(refreshToken);
      user.PreSave(nonce);
      users := users[id := user.record];
      nonce := nonce + 1;
      r := Success(TokenPair(accessToken, refreshToken));
      IssueTokensPreservesValid(old(Value()), id);
    }

    /** `registerUser`. */
    method RegisterUser(f: RegisterForm, upload: string -> Option<string>) returns (r: Result<UserView, Failure>)
      requires Valid()
      modifies this
      ensures Valid()
      ensures Outcome(r, Value()) == Register(old(Value()), f, upload)
    {
      if AnySuppliedBlank(f) {
        return Failure(ApiError(400, "All fields are required"));
      }
      var existedUser := FindOne(Value(), UsernameOrEmail(f.username, f.email));
      if existedUser.Some? {
        return Failure(PlainError("409"));
      }
      if !Truthy(f.avatarPath) {
        return Failure(ApiError(400, "Avatar is required"));
      }
      var avatar := upload(f.avatarPath.value);
      var coverImage := if Truthy(f.coverImagePath) then upload(f.coverImagePath.value) else None;
      if avatar.None? {
        return Failure(ApiError(400, "Avatar is required"));
      }
      r := CreateUser(f, avatar.value, coverImage);
    }

    /**
     * The rest of `registerUser` once the avatar is uploaded: `User.create` with the
     * lower-cased username, refused by a unique index on a clash, then the read-back
     * without password and refresh token.
     */
    method CreateUser(f: RegisterForm, avatar: string, coverImage: Option<string>)
      returns (r: Result<UserView, Failure>)
      requires Valid()
      modifies this
      ensures Valid()
      ensures Outcome(r, Value()) == CreateUploaded(old(Value()), f, avatar, coverImage)
    {
      if f.username.None? {
        return Failure(PlainError("TypeError"));
      }
      var fields := NewUser(Text.ToLower(f.username.value), f.email, f.fullName, avatar,
                            if Truthy(coverImage) then coverImage.value else "", f.password);
      r := InsertUser(fields);
    }

    /** `User.create(fields)`: build and validate the document, then insert it unless a unique index refuses it. */
    method InsertUser(fields: NewUser) returns (r: Result<UserView, Failure>)
      requires Valid()
      modifies this
      ensures Valid()
      ensures Outcome(r, Value()) == Create(old(Value()), fields)
    {
      var before := Value();
      var created := CreateDocument(fields, nonce);
      if created.Failure? {
        return Failure(created.error);
      }
      var user := created.value;
      if Taken(users, user.username, user.email) {
        return Failure(PlainError("E11000 duplicate key error"));
      }
      InsertPreservesValid(before, user);
      r := Success(Select(nextId, user, false, false));
      users, nextId, nonce := users[nextId := user], nextId + 1, nonce + 1;
    }

    /** `loginUser`. */
    method LoginUser(username: Option<string>, email: Option<string>, password: Option<string>)
      returns (r: Result<LoginReply, Failure>)
      requires Valid()
      modifies this
      ensures Valid()
      ensures Outcome(r, Value()) == Login(old(Value()), username, email, password)
    {
      if !Truthy(username) && !Truthy(email) {
        return Failure(ApiError(400, "username or email is required"));
      }
      var found := FindOne(Value(), UsernameOrEmail(username, email));
      if found.None? {
        return Failure(ApiError(404, "User does not exist"));
      }
      var id := found.value;
      if password.None? {
        return Failure(PlainError("data and hash arguments required"));
      }
      if !IsPasswordCorrect(users[id], password.value) {
        return Failure(ApiError(401, "Invalid user credentials"));
      }
      var tokens := GenerateAccessAndRefreshTokens(id);
      var loggedInUser := Select(id, users[id], false, false);
      r := Success(LoginReply(loggedInUser, tokens.value.accessToken, tokens.value.refreshToken));
    }

    /** `logoutUser`: `$unset` the refresh token of the authenticated user. */
    method LogoutUser(id: Id)
      requires Valid()
      modifies this
      ensures Valid()
      ensures Value() == Logout(old(Value()), id)
    {
      if id in users {
        users := users[id := users[id].(refreshToken := None)];
      }
      LogoutPreservesValid(old(Value()), id);
    }

    /** `refreshAccessToken`. */
    method RefreshAccessToken(cookie: Option<AuthToken>, body: Option<AuthToken>, expired: bool)
      returns (r: Result<TokenPair, Failure>)
      requires Valid()
      modifies this
      ensures Valid()
      ensures Outcome(r, Value()) == Refresh(old(Value()), cookie, body, expired)
    {
      var incoming := IncomingRefreshToken(cookie, body);
      if incoming.None? {
        return Failure(ApiError(401, "unauthorized request"));
      }
      var decoded := Verify(incoming.value, config.refreshSecret, expired);
      if decoded.Failure? {
        return Failure(ApiError(401, Message(decoded.error)));
      }
      var id := decoded.value.id;
      if id !in users {
        return Failure(ApiError(401, "invalid refresh token"));
      }
      if incoming != users[id].refreshToken {
        return Failure(ApiError(401, "Refresh token is expired or used"));
      }
      r := GenerateAccessAndRefreshTokens(id);
    }

    /** `changePassword`: assign the new password and save, so the pre-save hook hashes it. */
    method ChangeCurrentPassword(id: Id, oldPassword: Option<string>, newPassword: Option<string>)
      returns (r: Result<(), Failure>)
      requires Valid()
      modifies this
      ensures Valid()
      ensures Outcome(r, Value()) == ChangePassword(old(Value()), id, oldPassword, newPassword)
    {
      if id !in users {
        return Failure(PlainError("TypeError"));
      }
      var user := new UserDocument.Load(id, users[id]);
      if oldPassword.None? {
        return Failure(PlainError("data and hash arguments required"));
      }
      if !IsPasswordCorrect(user.record, oldPassword.value) {
        return Failure(ApiError(400, "Invalid password"));
      }
      if newPassword.None? {
        return Failure(PlainError("data and salt arguments required"));
      }
      user.SetPassword(newPassword.value);
      user.PreSave(nonce);
      users := users[id := user.record];
      nonce := nonce + 1;
      r := Success(());
      ChangePasswordPreservesValid(old(Value()), id, oldPassword, newPassword);
    }

    /** `getCurrentUser`: reads only. */
    method CurrentUser(id: Id) returns (r: Option<UserView>)
      ensures r == GetCurrentUser(Value(), id)
    {
      r := if id in users then Some(Select(id, users[id], false, false)) else None;
    }

    /** `updateAccountDetails`, answering with the document without its digest. */
    method UpdateAccount(id: Id, fullName: Option<string>, email: Option<string>)
      returns (r: Result<Option<UserView>, Failure>)
      requires Valid()
      modifies this
      ensures Valid()
      ensures Outcome(r, Value()) == UpdateAccountDetails(old(Value()), id, fullName, email)
    {
      if !Truthy(fullName) || !Truthy(email) {
        return Failure(ApiError(400, "All fields are required"));
      }
      if id !in users {
        return Success(None);
      }
      var user := users[id].(fullName := Text.Trim(fullName.value), email := Text.Normalize(email.value));
      if EmailTakenByOther(users, id, user.email) {
        return Failure(PlainError("E11000 duplicate key error"));
      }
      users := users[id := user];
      r := Success(Some(Select(id, user, false, true)));
      SetAccountDetailsPreservesValid(old(Value()), id, fullName, email);
    }

    /** `updateUserAvatar`. */
    method UpdateAvatar(id: Id, path: Option<string>, upload: string -> Option<string>)
      returns (r: Result<Option<UserView>, Failure>)
      requires Valid()
      modifies this
      ensures Valid()
      ensures Outcome(r, Value()) == UpdateUserAvatar(old(Value()), id, path, upload)
    {
      if !Truthy(path) {
        return Failure(ApiError(400, "Avatar file is missing"));
      }
      var avatar := upload(path.value);
      if !Truthy(avatar) {
        return Failure(ApiError(400, "Error while uploading on avatar"));
      }
      if id !in users {
        return Success(None);
      }
      users := users[id := users[id].(avatar := avatar.value)];
      r := Success(Some(Select(id, users[id], false, true)));
      UpdateUserAvatarPreservesValid(old(Value()), id, path, upload);
    }

    /** `updateUserCoverImage`. */
    method UpdateCoverImage(id: Id, path: Option<string>, upload: string -> Option<string>)
      returns (r: Result<Option<UserView>, Failure>)
      requires Valid()
      modifies this
      ensures Valid()
      ensures Outcome(r, Value()) == UpdateUserCoverImage(old(Value()), id, path, upload)
    {
      if !Truthy(path) {
        return Failure(ApiError(400, "Avatar file is missing"));
      }
      var coverImage := upload(path.value);
      if !Truthy(coverImage) {
        return Failure(ApiError(400, "Error while uploading on coverImage"));
      }
      if id !in users {
        return Success(None);
      }
      users := users[id := users[id].(coverImage := coverImage.value)];
      r := Success(Some(Select(id, users[id], false, true)));
      UpdateUserCoverImagePreservesValid(old(Value()), id, path, upload);
    }
  }
}

=== FILE: user_model.dfy ===
/**
 * The user schema: its fields and their setters, the required-field validation,
 * the pre-save hook that hashes a changed password, and the instance methods
 * `isPasswordCorrect`, `generateAccessToken` and `generateRefreshToken`.
 */
module UserModel {

  import opened Wrappers
  import opened ApiErrors
  import opened Text
  import opened Bcrypt
  import opened Jwt

  /** A document's `_id`, assigned by the store. */
  type Id = nat

  /** Access tokens carry the identity claims, refresh tokens only the id. */
  datatype Claims =
    | AccessClaims(id: Id, username: string, email: string, fullName: string)
    | RefreshClaims(id: Id)

  type AuthToken = Token<Claims>

  /** The process-wide secrets and expiries read from the environment. */
  datatype Config = Config(accessSecret: string, accessExpiry: string,
                           refreshSecret: string, refreshExpiry: string)

  /**
   * A stored user document. `password` holds the digest, never the plaintext;
   * `refreshToken` is absent until a login and after a logout.
   */
  datatype User = User(username: string, email: string, fullName: string,
                       avatar: string, coverImage: string,
                       password: Digest, refreshToken: Option<AuthToken>)

  /** A document as a query returns it after `.select(...)`: excluded fields are `None`. */
  datatype UserView = UserView(id: Id, username: string, email: string, fullName: string,
                               avatar: string, coverImage: string,
                               password: Option<Digest>, refreshToken: Option<AuthToken>)

  /** `.select("-password")` drops the digest, `.select("-refreshToken")` the token. */
  function Select(id: Id, u: User, keepPassword: bool, keepRefreshToken: bool): (v: UserView)
    ensures v.id == id && v.username == u.username && v.email == u.email && v.fullName == u.fullName
    ensures v.avatar == u.avatar && v.coverImage == u.coverImage
    ensures v.password == (if keepPassword then Some(u.password) else None)
    ensures v.refreshToken == (if keepRefreshToken then u.refreshToken else None)
  {
    UserView(id, u.username, u.email, u.fullName, u.avatar, u.coverImage,
             if keepPassword then Some(u.password) else None,
             if keepRefreshToken then u.refreshToken else None)
  }

  /** The fields handed to `User.create`; `None` is a field left `undefined`. */
  datatype NewUser = NewUser(username: string, email: Option<string>, fullName: Option<string>,
                             avatar: string, coverImage: string, password: Option<string>)

  /** Mongoose's `required` check on a string: present and not empty. */
  predicate Present(v: Option<string>) {
    v.Some? && v.value != ""
  }

  /**
   * Building a new document: the setters run (lower-case and trim for username and
   * email, trim for fullName), then the required fields are validated, then the
   * pre-save hook hashes the password, which is new and so counts as modified.
   */
  function CreateDocument(f: NewUser, salt: nat): (r: Result<User, Failure>)
    ensures r.Success? <==>
      Normalize(f.username) != "" && f.email.Some? && Normalize(f.email.value) != "" &&
      f.fullName.Some? && Trim(f.fullName.value) != "" && f.avatar != "" && Present(f.password)
    ensures r.Failure? ==> r.error.PlainError?
    ensures r.Success? ==>
      var u := r.value;
      u.username == Normalize(f.username) && u.email == Normalize(f.email.value) &&
      u.fullName == Trim(f.fullName.value) && u.avatar == f.avatar && u.coverImage == f.coverImage &&
      IsPasswordCorrect(u, f.password.value) && u.password.salt == salt && u.refreshToken == None
  {
    var username := Normalize(f.username);
    var email := if f.email.Some? then Some(Normalize(f.email.value)) else None;
    var fullName := if f.fullName.Some? then Some(Trim(f.fullName.value)) else None;
    if username == "" || !Present(email) || !Present(fullName) || f.avatar == "" || !Present(f.password) then
      Failure(PlainError("ValidationError"))
    else
      Success(User(username, email.value, fullName.value, f.avatar, f.coverImage,
                   Hash(f.password.value, salt), None))
  }

  /**
   * The pre-save hook. `newPassword` is a plaintext assigned to `password` since the
   * document was loaded (`isModified("password")`); only then is it hashed into the
   * record. Otherwise the record, and its digest, are saved as they are.
   */
  function PreSaveHook(u: User, newPassword: Option<string>, salt: nat): (r: User)
    ensures newPassword.None? ==> r == u
    ensures newPassword.Some? ==>
      r == u.(password := r.password) && r.password.salt == salt &&
      forall p :: IsPasswordCorrect(r, p) <==> p == newPassword.value
  {
    if newPassword.None? then u else u.(password := Hash(newPassword.value, salt))
  }

  /** `isPasswordCorrect(p)`: `p` is the plaintext the stored digest was made from. */
  function IsPasswordCorrect(u: User, p: string): (b: bool)
    ensures b <==> u.password == Hash(p, u.password.salt)
  {
    Compare(p, u.password)
  }

  /** `generateAccessToken()`: the identity claims, under the access secret and expiry. */
  function GenerateAccessToken(id: Id, u: User, cfg: Config, now: nat): (t: AuthToken)
    ensures Verify(t, cfg.accessSecret, false) == Success(AccessClaims(id, u.username, u.email, u.fullName))
    ensures t.Signed? && t.expiresIn == cfg.accessExpiry && t.issuedAt == now
  {
    Sign(AccessClaims(id, u.username, u.email, u.fullName), cfg.accessSecret, cfg.accessExpiry, now)
  }

  /** `generateRefreshToken()`: only the id, under the refresh secret and expiry. */
  function GenerateRefreshToken(id: Id, cfg: Config, now: nat): (t: AuthToken)
    ensures Verify(t, cfg.refreshSecret, false) == Success(RefreshClaims(id))
    ensures t.Signed? && t.expiresIn == cfg.refreshExpiry && t.issuedAt == now
  {
    Sign(RefreshClaims(id), cfg.refreshSecret, cfg.refreshExpiry, now)
  }

  /**
   * A user document loaded into memory. Assigning a plaintext to `password` is
   * recorded in `newPassword` (Mongoose's modified-path tracking); `PreSave` runs the
   * hook in place before the document is written back.
   */
  class UserDocument {
    const id: Id
    var record: User
    var newPassword: Option<string>

    /** `User.findById(id)` on a stored record: nothing is modified yet. */
    constructor Load(id: Id, u: User)
      ensures this.id == id && record == u && newPassword == None
    {
      this.id := id;
      record := u;
      newPassword := None;
    }

    /** `user.password = p`. */
    method SetPassword(p: string)
      modifies this
      ensures newPassword == Some(p) && record == old(record)
    {
      newPassword := Some(p);
    }

    /** `user.refreshToken = t`: the password is not marked modified. */
    method SetRefreshToken(t: AuthToken)
      modifies this
      ensures record == old(record).(refreshToken := Some(t)) && newPassword == old(newPassword)
    {
      record := record.(refreshToken := Some(t));
    }

    /** The `pre("save")` hook: re-hashes only when the password was modified. */
    method PreSave(salt: nat)
      modifies this
      ensures record == PreSaveHook(old(record), old(newPassword), salt)
      ensures newPassword == None
    {
      if newPassword.None? {
        return;
      }
      record := record.(password := Hash(newPassword.value, salt));
      newPassword := None;
    }
  }
}

=== FILE: wrappers.dfy ===
/** Option and Result, the failure-carrying values every controller operation returns. */
module Wrappers {

  datatype Option<+T> = None | Some(value: T)

  datatype Result<+R, +E> = Success(value: R) | Failure(error: E)
}
